=== FILE: README.md ===
# docfx REST API (OpenAPI 3) view model, in Dafny

This project models the part of docfx's `Docfx.Build.RestApi` that turns an
OpenAPI 3 document into the REST documentation view model. It has three stages:

- **Version gate.** `OpenApiJsonParser.Parse` decides over the reader's output
  (document, errors, warnings, specification version) whether there is a model
  at all.
- **Document processor.** `OpenApiDocumentProcessor` does three things:
  - classifies input files by kind, file ending and content;
  - requires every operation to carry an `operationId`;
  - builds the file model, including its list of UID definitions.
- **Converter.** `OpenApiModelConverter` projects the document:
  - UIDs are joined from slash-trimmed segments;
  - HTML ids replace every non-word character with `_`;
  - an operation's parameters override its path's parameters by (name, location);
  - only seven HTTP verbs become children;
  - a tag's `x-bookmark-id` takes precedence for its HTML id;
  - responses' (mime type, example) pairs are flattened.

Files and modules:

| file | module | what it holds |
|---|---|---|
| `nullable.dfy` | `Nullable` | `Option` for C# `null`, `Result`, `Outcome` |
| `strings.dfy` | `Strings` | `Trim`, `Join`, `Split`, ordinal case-insensitive comparison, word characters |
| `openapi_objects.dfy` | `OpenApiObjects` | the parsed document tree: info, servers, tags, paths, verbs, operations, parameters, responses |
| `view_models.dfy` | `ViewModels` | root, tag, child, parameter, response and example view models |
| `openapi_json_parser.dfy` | `JsonParser` | the reader's outcome and `Parse` |
| `identifiers.dfy` | `Identifiers` | `GenerateUid`, `GetUid`, `GetUidForTag`, `GetUidForOperation`, `GetHtmlId` |
| `parameters.dfy` | `ParameterResolution` | `IsParameterEquals`, `GetParametersForOperation`, `Union` by reference |
| `model_converter.dfy` | `ModelConverter` | `FromOpenApiModel` and its per-tag, per-operation, per-parameter, per-response parts |
| `document_processor.dfy` | `DocumentProcessor` | `GetProcessingPriority`, `IsSupportedFile`, `IsOpenApiFile`, `CheckOperationId`, `LoadArticle` |
| `converter_examples.dfy` | `ConverterExamples` | the contacts sample's identifiers, worked through the model |
| `processor_examples.dfy` | `ProcessorExamples` | file classification examples |

Modelling choices:

- **Null.** A C# `null` is `None`.
- **Parameter identity.** A parameter object carries an `identity` standing for its object reference. `Enumerable.Union` therefore de-duplicates by identity and keeps first occurrences; it does not compare values.
- **Files and the reader.** The reader's outcome for a path is an input, `ReaderResult`: either a document with its diagnostic, or the exception it threw.
- **Other environment inputs.** The file's raw text, its git detail and its display path are also inputs.
- **Serialisation.** `JsonUtility.Serialize` is the function parameter `serialize`.
- **Verb order.** A path's verbs are a sequence in dictionary order.

## Model

| member | source | states |
|---|---|---|
| JsonParser.Parse | src/Docfx.Build.RestApi/OpenApi/OpenApiJsonParser.cs:9-32 | a reader exception passes through unchanged, and only then is the result a failure; any error gives null whatever the version; with no errors there is a model exactly when the version is 3.0; the model wraps the reader's document, with null raw text and empty metadata |
| JsonParser.ParseIgnoresWarnings | src/Docfx.Build.RestApi/OpenApi/OpenApiJsonParser.cs:14-25 | warnings are only logged: two diagnostics that differ only in warnings give the same outcome |
| JsonParser.Swagger2IsRejected | src/Docfx.Build.RestApi/OpenApi/OpenApiJsonParser.cs:26-31 | a Swagger 2.0 document is rejected (null), with or without errors |
| Strings.Trim | src/Docfx.Build.RestApi/OpenApiModelConverter.cs:165 | `Trim('/')` never lengthens a segment, and the result neither starts nor ends with `/` |
| Strings.TrimInfix | src/Docfx.Build.RestApi/OpenApiModelConverter.cs:165 | the trimmed segment is an infix of its input, and everything cut off on either side is `/` |
| Strings.TrimEmpty | src/Docfx.Build.RestApi/OpenApiModelConverter.cs:165 | trimming leaves nothing exactly when the segment consists of slashes only |
| Identifiers.GenerateUid | src/Docfx.Build.RestApi/OpenApiModelConverter.cs:163-166 | a list whose segments are all null or empty gives the empty UID; the shape of every other UID is stated by the lemmas below |
| Identifiers.KeptSegments | src/Docfx.Build.RestApi/OpenApiModelConverter.cs:165 | no kept segment starts or ends with `/`, and there are at most as many as input segments |
| Identifiers.KeptSegmentsAppend | src/Docfx.Build.RestApi/OpenApiModelConverter.cs:165 | filtering and trimming segments distributes over concatenation of segment lists |
| Identifiers.AbsentSegmentIgnored | src/Docfx.Build.RestApi/OpenApiModelConverter.cs:163-166 | a null or empty segment anywhere in the list leaves the UID unchanged |
| Identifiers.SlashOnlySegmentKept | src/Docfx.Build.RestApi/OpenApiModelConverter.cs:165 | a non-empty segment made only of slashes is filtered before trimming, so it is kept as an empty component |
| Identifiers.UidSplitsIntoSegments | src/Docfx.Build.RestApi/OpenApiModelConverter.cs:163-166 | splitting a UID at `/` gives back the kept segments when none has an inner `/` (join/split round trip) |
| Identifiers.UidHasNoOuterSlash | src/Docfx.Build.RestApi/OpenApiModelConverter.cs:163-166 | a UID whose first and last kept segments are non-empty neither starts nor ends with `/` |
| Identifiers.KeptPair | src/Docfx.Build.RestApi/OpenApiModelConverter.cs:165 | two present segments are kept as their two slash-trimmed forms, in order |
| Identifiers.ThreeSegmentUid | src/Docfx.Build.RestApi/OpenApiModelConverter.cs:163-166 | three present segments give their slash-trimmed forms joined with `/` |
| Identifiers.ChildUidExtendsParent | src/Docfx.Build.RestApi/OpenApiModelConverter.cs:163-166 | a two-segment UID under a parent without outer slashes is the parent, `/`, and the trimmed name |
| Identifiers.GetHtmlId | src/Docfx.Build.RestApi/OpenApiModelConverter.cs:137-141 | null exactly when the id is null or empty; otherwise exactly as long as the id |
| Identifiers.Sanitize | src/Docfx.Build.RestApi/OpenApiModelConverter.cs:128 | each word character stays in place and each other character becomes `_`, one for one |
| Identifiers.SanitizeAppend | src/Docfx.Build.RestApi/OpenApiModelConverter.cs:140 | the `\W` substitution distributes over concatenation |
| Identifiers.SanitizeWordChars | src/Docfx.Build.RestApi/OpenApiModelConverter.cs:140 | a string of word characters only is unchanged by the `\W` substitution |
| Identifiers.SanitizeEach | src/Docfx.Build.RestApi/OpenApiModelConverter.cs:140 | any string that keeps each word character and has `_` for each other character, one for one, is the substitution's result (the converse of `Identifiers.Sanitize`) |
| Identifiers.HtmlIdIsWordOnly | src/Docfx.Build.RestApi/OpenApiModelConverter.cs:137-141 | an HTML id holds word characters only |
| Identifiers.HtmlIdIdempotent | src/Docfx.Build.RestApi/OpenApiModelConverter.cs:137-141 | deriving an HTML id from an HTML id changes nothing |
| Identifiers.GetUid | src/Docfx.Build.RestApi/OpenApiModelConverter.cs:143-146 | with server URL, title and version present, the root UID is the three slash-trimmed, joined with `/` |
| Identifiers.PlainRootUid | src/Docfx.Build.RestApi/OpenApiModelConverter.cs:143-146 | a first server URL, title and version without outer slashes are joined with `/` unchanged |
| Identifiers.GetUidForTag | src/Docfx.Build.RestApi/OpenApiModelConverter.cs:153-156 | a tag UID is the slash-trimmed parent UID and `/` when the parent is non-empty, then `tag`, then `/` and the slash-trimmed name when the name is present |
| Identifiers.GetUidForOperation | src/Docfx.Build.RestApi/OpenApiModelConverter.cs:148-151 | an operation UID is the slash-trimmed parent UID and `/` when the parent is non-empty, then the slash-trimmed operation id; without an id it is the slash-trimmed parent UID |
| Identifiers.TagUidShape | src/Docfx.Build.RestApi/OpenApiModelConverter.cs:153-156 | a tag UID is the parent UID, `/tag/`, and the slash-trimmed tag name |
| Identifiers.OperationUidShape | src/Docfx.Build.RestApi/OpenApiModelConverter.cs:148-151 | an operation UID is the parent UID, `/`, and the slash-trimmed operation id |
| ParameterResolution.IsParameterEquals | src/Docfx.Build.RestApi/OpenApiModelConverter.cs:198-205 | two parameters match exactly when neither is null and their names and locations are equal; null on either side never matches |
| ParameterResolution.ParameterEqualsIsEquivalence | src/Docfx.Build.RestApi/OpenApiModelConverter.cs:198-205 | (name, location) equality is reflexive, symmetric and transitive on non-null parameters, and null matches nothing |
| ParameterResolution.UniquePathParameters | src/Docfx.Build.RestApi/OpenApiModelConverter.cs:186-187 | a parameter is kept exactly when it is a path parameter that no operation parameter overrides; distinct inputs stay distinct; a path list with nothing overridden is kept as it is |
| ParameterResolution.UniquePathParametersAppend | src/Docfx.Build.RestApi/OpenApiModelConverter.cs:186-187 | the filter keeps path order: filtering a concatenation is the concatenation of the filtered parts |
| ParameterResolution.DistinctByIdentity | src/Docfx.Build.RestApi/OpenApiModelConverter.cs:189 | the result has no repeated object, covers exactly the identities not yet seen, and leaves a list without repeats unchanged |
| ParameterResolution.DistinctByIdentityAppend | src/Docfx.Build.RestApi/OpenApiModelConverter.cs:189 | de-duplication keeps first occurrences in order: on a concatenation it de-duplicates the first part, then the second part against everything the first part contains |
| ParameterResolution.Union | src/Docfx.Build.RestApi/OpenApiModelConverter.cs:189 | every object of either list occurs exactly once, and nothing else occurs |
| ParameterResolution.UnionOrder | src/Docfx.Build.RestApi/OpenApiModelConverter.cs:189 | the union is the first list's distinct objects in their order, followed by those of the second list not in the first, in the second list's order |
| ParameterResolution.GetParametersForOperation | src/Docfx.Build.RestApi/OpenApiModelConverter.cs:174-190 | no path parameters: the operation's list as it is; no operation parameters: the path's list as it is; otherwise every operation parameter and every non-overridden path parameter, each once, and nothing else |
| ParameterResolution.ResolutionOrder | src/Docfx.Build.RestApi/OpenApiModelConverter.cs:185-189 | when neither list repeats an object, and an object on both lists is the same object, the result is the operation parameters followed by the surviving path parameters in path order; a shared object overrides itself |
| ParameterResolution.OverrideExample | src/Docfx.Build.RestApi/OpenApiModelConverter.cs:185-189 | an operation's `v` (query, optional) replaces the path's required `v`, and the path's `id` is inherited: two parameters, `v` not required |
| ModelConverter.SupportedOperationTypes | src/Docfx.Build.RestApi/OpenApiModelConverter.cs:65-66 | a verb is projected exactly when its name is case-insensitively one of the seven names, which is every verb but `Trace` |
| ModelConverter.Bookmark | src/Docfx.Build.RestApi/OpenApiModelConverter.cs:37-39 | a bookmark is the tag's `x-bookmark-id` extension when that is a non-empty string, taken verbatim; a missing, non-string or empty extension gives none |
| ModelConverter.TagHtmlId | src/Docfx.Build.RestApi/OpenApiModelConverter.cs:37-40 | a non-empty string bookmark is used verbatim; otherwise the tag's HTML id is null exactly for a null or empty name, else the name with each word character kept and each other character replaced by `_` |
| ModelConverter.ToTagItem | src/Docfx.Build.RestApi/OpenApiModelConverter.cs:42-53 | a tag's metadata holds `externalDocs` exactly when the tag has external docs, serialised |
| ModelConverter.ProjectTags | src/Docfx.Build.RestApi/OpenApiModelConverter.cs:33-57 | root tags one for one, in document order |
| ModelConverter.ParameterMetadata | src/Docfx.Build.RestApi/OpenApiModelConverter.cs:84-96 | `in` and `required` always; `default` and `type` exactly when the schema default is a string; no other key |
| ModelConverter.ProjectParameters | src/Docfx.Build.RestApi/OpenApiModelConverter.cs:82-98 | one parameter view model per resolved parameter, in order |
| ModelConverter.EntryExamples | src/Docfx.Build.RestApi/OpenApiModelConverter.cs:105-111 | one item per example of a content entry, each with the entry's mime type |
| ModelConverter.ExampleContent | src/Docfx.Build.RestApi/OpenApiModelConverter.cs:110 | an example's content is null exactly when its value is null, and otherwise the serialised value |
| ModelConverter.ContentExamples | src/Docfx.Build.RestApi/OpenApiModelConverter.cs:105-111 | a response has as many example items as its content entries have examples in total |
| ModelConverter.ContentExamplesAt | src/Docfx.Build.RestApi/OpenApiModelConverter.cs:105-111 | example `j` of entry `i` is item (examples of the entries before `i`) + `j`, with entry `i`'s mime type |
| ModelConverter.ToResponseItem | src/Docfx.Build.RestApi/OpenApiModelConverter.cs:99-112 | status code and description are the response's; examples are null exactly when the response has no content, and otherwise exactly the flattened (mime type, example) items of its content entries |
| ModelConverter.ProjectResponses | src/Docfx.Build.RestApi/OpenApiModelConverter.cs:99-112 | one response view model per response, in declaration order |
| ModelConverter.TagNames | src/Docfx.Build.RestApi/OpenApiModelConverter.cs:75 | a child keeps its operation's tag names in declaration order |
| ModelConverter.ToChildItem | src/Docfx.Build.RestApi/OpenApiModelConverter.cs:68-116 | a child carries its operation's id, summary and description, and its path and verb name; its UID is derived from the root UID and its HTML id from that UID; its parameters are the resolved ones; its responses are the operation's responses projected one for one; its metadata is only the source |
| ModelConverter.SupportedOperations | src/Docfx.Build.RestApi/OpenApiModelConverter.cs:63-66 | every kept entry is an input entry whose verb passes the case-insensitive name whitelist, and nothing is added |
| ModelConverter.SupportedOperationsCount | src/Docfx.Build.RestApi/OpenApiModelConverter.cs:63-67 | each (path, verb) entry under a verb other than `Trace` keeps its number of occurrences, and `Trace` entries are dropped |
| ModelConverter.SupportedOperationsMembers | src/Docfx.Build.RestApi/OpenApiModelConverter.cs:63-67 | an entry is projected exactly when it occurs and its verb is not `Trace` |
| ModelConverter.SupportedOperationsAppend | src/Docfx.Build.RestApi/OpenApiModelConverter.cs:63-67 | filtering by verb distributes over concatenation |
| ModelConverter.ProjectOperations | src/Docfx.Build.RestApi/OpenApiModelConverter.cs:63-119 | the inner loop yields at most one child per verb, each under the path being walked and carrying the source as its only metadata |
| ModelConverter.ProjectOperationsMatches | src/Docfx.Build.RestApi/OpenApiModelConverter.cs:63-119 | the inner loop over one path's verbs yields exactly the children of that path's whitelisted entries, in verb order |
| ModelConverter.ProjectPaths | src/Docfx.Build.RestApi/OpenApiModelConverter.cs:58-121 | every child of the nested loops belongs to one of the document's paths and carries the source as its only metadata |
| ModelConverter.ProjectPathsMatches | src/Docfx.Build.RestApi/OpenApiModelConverter.cs:58-121 | the nested loops yield one child per whitelisted (path, verb) pair, in path order and then verb order |
| ModelConverter.FromOpenApiModel | src/Docfx.Build.RestApi/OpenApiModelConverter.cs:18-124 | the root's name, description, metadata and raw text come from the model, its UID from the first server, title and version, and its HTML id from the UID; its tags and children are as above |
| ModelConverter.ChildrenAreWhitelisted | src/Docfx.Build.RestApi/OpenApiModelConverter.cs:63-67 | every child's operation name is one of the seven names and never `Trace` |
| ModelConverter.WhitelistedChildren | src/Docfx.Build.RestApi/OpenApiModelConverter.cs:63-67 | any children built one for one from the projected entries carry whitelisted operation names, never `Trace` |
| DocumentProcessor.SupportedEndingIsJson | src/Docfx.Build.RestApi/OpenApiDocumentProcessor.cs:24-31 | matching any supported ending is the same as ending with `.json`, ignoring case |
| DocumentProcessor.AnyEndingImpliesSuffix | src/Docfx.Build.RestApi/OpenApiDocumentProcessor.cs:125-128 | when every ending ends with a common suffix, a path matching any of them ends with that suffix |
| DocumentProcessor.MemberEndingMatches | src/Docfx.Build.RestApi/OpenApiDocumentProcessor.cs:125-128 | a path that ends with one of the endings matches the list |
| DocumentProcessor.IsSupportedFile | src/Docfx.Build.RestApi/OpenApiDocumentProcessor.cs:124-125 | a path not ending in `.json` (ignoring case) is rejected without consulting the reader; a `.json` path is supported exactly when it holds an OpenAPI 3 document, and reader exceptions escape as they do from `IsOpenApiFile` |
| DocumentProcessor.IsOpenApiFile | src/Docfx.Build.RestApi/OpenApiDocumentProcessor.cs:130-146 | true exactly when parsing yields a model; "file not found" and "unsupported version" give false; any other reader exception escapes |
| DocumentProcessor.GetExtension | src/Docfx.Build.RestApi/OpenApiDocumentProcessor.cs:80 | the extension is empty or a suffix of the path that starts with its only `.` and holds no directory separator; it is empty exactly when the path ends with `.` or its file name has no `.` |
| DocumentProcessor.ExtensionBeforeEmpty | src/Docfx.Build.RestApi/OpenApiDocumentProcessor.cs:80 | the backward scan from any position finds nothing exactly when it starts on a final `.` or no `.` before it lacks a later separator |
| DocumentProcessor.MarkdownExtension | src/Docfx.Build.RestApi/OpenApiDocumentProcessor.cs:80 | the extension equals `.md` ignoring case exactly when the file name ends with `.md` ignoring case |
| DocumentProcessor.MarkdownSuffixIsExtension | src/Docfx.Build.RestApi/OpenApiDocumentProcessor.cs:80 | a file name ending with `.md` in any case has exactly that ending as its extension |
| DocumentProcessor.GetProcessingPriority | src/Docfx.Build.RestApi/OpenApiDocumentProcessor.cs:69-89 | an article is processed exactly when its full path ends with `.json` and it parses as OpenAPI 3.0, and an exception escapes only from a `.json` path; an overwrite file exactly when it ends with `.md`; nothing else is processed |
| DocumentProcessor.NonJsonArticleNotSupported | src/Docfx.Build.RestApi/OpenApiDocumentProcessor.cs:124-125 | an article without a `.json` ending is not processed, whatever the reader would return |
| DocumentProcessor.CheckOperations | src/Docfx.Build.RestApi/OpenApiDocumentProcessor.cs:154-159 | passes exactly when every verb of the path has an operation id; a failure names the path, the file and a verb lacking one |
| DocumentProcessor.CheckPaths | src/Docfx.Build.RestApi/OpenApiDocumentProcessor.cs:150-162 | passes exactly when every operation of every path has an id; a failure names an offending (path, verb) and the file |
| DocumentProcessor.CheckOperationId | src/Docfx.Build.RestApi/OpenApiDocumentProcessor.cs:148-163 | passes exactly when every operation, under any verb including ones the converter skips, has an operation id; always passes without paths |
| DocumentProcessor.EntriesHaveIds | src/Docfx.Build.RestApi/OpenApiDocumentProcessor.cs:148-163 | after the check, every flattened (path, verb) entry has an operation id |
| DocumentProcessor.NonEmptyDefinitions | src/Docfx.Build.RestApi/OpenApiDocumentProcessor.cs:113-118 | one definition per non-empty UID, as often as it occurs, with the display path, and none for an empty UID; `DocumentProcessor.NonEmptyDefinitionsAt` fixes the order |
| DocumentProcessor.NonEmptyDefinitionsAt | src/Docfx.Build.RestApi/OpenApiDocumentProcessor.cs:113-118 | the definition of a non-empty UID `k` sits at the number of non-empty UIDs before `k`, so the definitions keep the UIDs' order |
| DocumentProcessor.NonEmptyDefinitionsCount | src/Docfx.Build.RestApi/OpenApiDocumentProcessor.cs:113-118 | there are as many definitions as non-empty UIDs |
| DocumentProcessor.UidList | src/Docfx.Build.RestApi/OpenApiDocumentProcessor.cs:112-119 | the root UID comes first; after it the list holds only non-empty UIDs; every entry has the display path; the length is 1 + non-empty child UIDs + non-empty tag UIDs; the child and tag definitions follow in their own order (`DocumentProcessor.UidListChildAt`, `DocumentProcessor.UidListTagAt`) |
| DocumentProcessor.UidListChildAt | src/Docfx.Build.RestApi/OpenApiDocumentProcessor.cs:112-118 | a child with a non-empty UID is defined at 1 + the number of non-empty child UIDs before it, with the display path |
| DocumentProcessor.UidListTagAt | src/Docfx.Build.RestApi/OpenApiDocumentProcessor.cs:112-118 | a tag with a non-empty UID is defined after the root and all child definitions, at its position among the non-empty tag UIDs |
| DocumentProcessor.LoadArticle | src/Docfx.Build.RestApi/OpenApiDocumentProcessor.cs:91-122 | fails exactly when an operation lacks an id, naming the file; otherwise the view model is the conversion of the reader's document: its name, description, UID and HTML id, its tags one for one and its children one per whitelisted (path, verb) entry, each child carrying the git detail or null; it carries the raw text; its metadata is exactly the document type, the system keys and, when there is git detail, the source; the UID list is built from that view model as above |
| DocumentProcessor.ArticleViewModelFacts | src/Docfx.Build.RestApi/OpenApiDocumentProcessor.cs:106-107 | the article's view model is the conversion of the model's document (UID, HTML id, tags, children), keeps the model's raw text and metadata, adds the system keys, and gives every child an operation id and the source detail |
| DocumentProcessor.ArticleMetadataFacts | src/Docfx.Build.RestApi/OpenApiDocumentProcessor.cs:94-102 | a parsed article's metadata is the document type, the system keys and, exactly when there is git detail, the source |
| DocumentProcessor.ChildrenHaveIds | src/Docfx.Build.RestApi/OpenApiDocumentProcessor.cs:97-106 | once the check passes, every child of the projection has an operation id and the model's source |
| ConverterExamples.ContactsRootUid | test/Docfx.Build.RestApi.Tests/OpenApiModelConverterTest.cs:19 | the contacts root UID is `https://graph.windows.net/myorganization/Contacts/1.0`, keeping the inner `//` |
| ConverterExamples.ContactsRootHtmlId | test/Docfx.Build.RestApi.Tests/OpenApiModelConverterTest.cs:20 | its HTML id is `https___graph_windows_net_myorganization_Contacts_1_0`, one `_` per replaced character |
| ConverterExamples.BookmarkedTagHtmlId | test/Docfx.Build.RestApi.Tests/OpenApiModelConverterTest.cs:34 | a tag with bookmark `contact-bookmark` takes it verbatim, `-` included |
| ConverterExamples.PetStoreTagUid | test/Docfx.Build.RestApi.Tests/OpenApiModelConverterTest.cs:44 | the `pet store` tag UID keeps its space |
| ConverterExamples.PetStoreTagHtmlId | test/Docfx.Build.RestApi.Tests/OpenApiDocumentProcessorTest.cs:99 | without a bookmark, `pet store` has HTML id `pet_store` |
| ConverterExamples.ContactByIdHtmlId | test/Docfx.Build.RestApi.Tests/OpenApiModelConverterTest.cs:62 | the operation `get contact by id` has HTML id `…_1_0_get_contact_by_id` |
| ConverterExamples.ContactByIdUid | test/Docfx.Build.RestApi.Tests/OpenApiModelConverterTest.cs:63 | its UID is the root UID, `/`, and `get contact by id` |
| ConverterExamples.ObjectIdMetadata | test/Docfx.Build.RestApi.Tests/OpenApiModelConverterTest.cs:69-73 | a required string path parameter with a string default has metadata `in`=`Path`, `required`, `default` and `type`=`string` |
| ConverterExamples.TwoContentEntries | src/Docfx.Build.RestApi/OpenApiModelConverter.cs:105-111 | two content entries with one example each give two items in entry order; the null example has null content |
| Identifiers.SlashOnlyServerUid | src/Docfx.Build.RestApi/OpenApiModelConverter.cs:143-146 | a server URL made only of slashes gives root UID `/title/version`: it is kept as an empty segment |
| Identifiers.SlashRootTagUid | src/Docfx.Build.RestApi/OpenApiModelConverter.cs:153-156 | under a root UID `/p` the tag UID is `p/tag/name`, which does not extend the root UID |
| ProcessorExamples.OpenApi3ArticleIsNormal | test/Docfx.Build.RestApi.Tests/OpenApiDocumentProcessorTest.cs:51-57 | an OpenAPI 3.0 `.json` article read without errors is processed |
| ProcessorExamples.BadFormatIsNotSupported | test/Docfx.Build.RestApi.Tests/OpenApiDocumentProcessorTest.cs:35-41 | a `.json` article the reader reports an error for is not processed |
| ProcessorExamples.MissingXyzIsNotSupported | test/Docfx.Build.RestApi.Tests/OpenApiDocumentProcessorTest.cs:43-49 | a missing `.xyz` file is not processed |
| ProcessorExamples.MissingJsonIsNotSupported | src/Docfx.Build.RestApi/OpenApiDocumentProcessor.cs:137-140 | a missing `.json` file is not processed: "file not found" is caught |
| ProcessorExamples.MarkdownOverwriteIsNormal | src/Docfx.Build.RestApi/OpenApiDocumentProcessor.cs:79-83 | an overwrite file ending in `.MD` is processed |

Notes:

- **Per-character replacement.** `GetHtmlId` replaces every single non-word character with `_`, so `://` becomes `___`. It does not collapse a run of them into one `_`. The model follows the code.
- **Root `/`.** Root UIDs need not be prefixes of the UIDs derived from them. `GenerateUid` trims its parent segment again, so a server URL of slashes only gives root `/title/version`, but tag UIDs `title/version/tag/name` under it (`Identifiers.SlashOnlyServerUid`, `Identifiers.SlashRootTagUid`).

## Left out

- The Microsoft.OpenApi stream reader, `$ref` resolution and opening files: the reader's outcome for a path is the input `ReaderResult`.
- Logging of warnings, errors and verbose messages: no observable effect on results.
- `GitUtility.TryGetFileDetail`, `ReadAllText` and `PathUtility.MakeRelativePath`: their results are the inputs `repoInfo`, `rawText` and `displayLocalPath` of `LoadArticle`.
- `JsonUtility.Serialize`: an opaque total function, the parameter `serialize`.
- `\W` is approximated on ASCII: letters, digits and `_` are word characters, and everything else, including non-ASCII letters, is not. .NET's Unicode categories are not modelled.
- Strings are sequences of Unicode scalar values, not UTF-16 code units. In `Identifiers.Sanitize`, `Identifiers.GetHtmlId` and `Strings.EqualsIgnoreCase`, a character outside the Basic Multilingual Plane is one character: `\W` replaces it with one `_` where .NET writes two, one per surrogate. Lengths are counted in scalar values.
- `OrdinalIgnoreCase` is modelled as ASCII upper-case folding: non-ASCII case pairs are not folded.
- `Path.GetExtension` treats `/` and `\` as directory separators, as on Windows.
- `JsonParser.Parse`: strict-mode parsing and `OpenApiJsonParserException` are not modelled. The code never throws that exception, so errors always give null. The parser test at test/Docfx.Build.RestApi.Tests/OpenApiJsonParserTest.cs:44-47 expects a throw; that does not follow from this code.
- `Identifiers.GetUid` and `ModelConverter.FromOpenApiModel` require a non-empty server list. The code indexes `Servers[0]` unguarded, and the crash on an empty list is not modelled.
- `DocumentProcessor.LoadArticle` requires a successful, non-null parse. The code dereferences a null result, and that crash is not modelled. It also requires a server whenever the operation-id check passes, for the same reason as `GetUid`.
- `DocumentProcessor.LoadArticle`: its `metadata` argument is ignored by the code and is not a parameter.
- The `Location` and `Schema` of a parameter, and each media type's example dictionary, are never null in the model. The code dereferences them unguarded.
- A string default's value is never null in the model, and JSON numbers are integers. Neither affects any modelled decision.
- `Constants.PropertyName.Source` and `.SystemKeys` are not part of this model. They are taken to be `"source"` and `"_systemKeys"`.
- `DocumentType` has `Article`, `Overwrite` and `Resource`. Every kind other than the first two behaves like `Resource`, which is never processed.
- Rendering of markdown descriptions, `Metadata["schema"]` and the scheme-less child UID expected at test/Docfx.Build.RestApi.Tests/OpenApiDocumentProcessorTest.cs:72-145 come from later build steps. `GetUidForOperation` as written keeps the parent UID whole, as `ConverterExamples.ContactByIdUid` shows.
- Output file-name suffix stripping: the comment at src/Docfx.Build.RestApi/OpenApiDocumentProcessor.cs:22-23 describes it, but the code shown does not implement it.
- `GetMetadataStringValue`: an unused helper.
- `ConceptualDocumentProcessor`: a markdown processor dominated by file reading and serialisation, outside the REST API projection.
- `ConverterExamples.ObjectIdMetadata`: uses a shortened default value (`31944231`) instead of the sample's full GUID. String literals are kept short so the verifier can evaluate them; the other examples write their longer literals as concatenations of short pieces for the same reason.

=== FILE: converter_examples.dfy ===
/**
 Worked examples of the projection, taken from the contacts sample the
 converter's tests describe: the root, tag and operation identifiers, a tag
 bookmark, a parameter's metadata and a response's examples. Long strings are
 written as concatenations of short pieces.
 */
module ConverterExamples {
  import opened Nullable
  import opened Strings
  import opened OpenApiObjects
  import opened ViewModels
  import opened Identifiers
  import opened ModelConverter

  /** The server URL `https://graph.windows.net/myorganization`, in three pieces. */
  const ServerUrl := "https://graph." + "windows.net/" + "myorganization"

  /** `/Contacts/1.0`, the part of the root UID after the server URL. */
  const ContactsSuffix := "/Contacts/1.0"

  /** `https://graph.windows.net/myorganization/Contacts/1.0`. */
  const ContactsUid := ServerUrl + ContactsSuffix

  /** The sanitised server URL `https___graph_windows_net_myorganization`. */
  const ServerHtmlId := "https___graph_" + "windows_net_" + "myorganization"

  /** `_Contacts_1_0`. */
  const ContactsSuffixHtmlId := "_Contacts_1_0"

  /** `https___graph_windows_net_myorganization_Contacts_1_0`. */
  const ContactsHtmlId := ServerHtmlId + ContactsSuffixHtmlId

  /** The root UID joins the server URL, the title and the version with `/`. */
  lemma ContactsRootUid(url: string, title: string, version: string)
    requires url == ServerUrl && title == "Contacts" && version == "1.0"
    ensures GetUid(Document(Info(Some(title), None, Some(version)), [Server(Some(url))], None, None)) == ContactsUid
  {
    assert url[0] == 'h' && url[|url| - 1] == 'n';
    assert title[0] == 'C' && title[|title| - 1] == 's';
    assert version[0] == '1' && version[|version| - 1] == '0';
    RootUidAfterServer(url, title, version);
    assert "/" + title + "/" + version == ContactsSuffix;
  }

  /** The root UID is the server URL followed by the rest of it. */
  lemma RootUidAfterServer(url: string, title: string, version: string)
    requires |url| > 0 && url[0] != '/' && url[|url| - 1] != '/'
    requires |title| > 0 && title[0] != '/' && title[|title| - 1] != '/'
    requires |version| > 0 && version[0] != '/' && version[|version| - 1] != '/'
    ensures GetUid(Document(Info(Some(title), None, Some(version)), [Server(Some(url))], None, None)) ==
      url + ("/" + title + "/" + version)
  {
    PlainRootUid(url, title, version);
    assert url + "/" + title + "/" + version == url + ("/" + title + "/" + version);
  }

  /** Sanitising the server URL replaces its `:`, `/` and `.`, piece by piece. */
  lemma ServerUrlHtmlId()
    ensures Sanitize(ServerUrl) == ServerHtmlId
  {
    SchemeSanitized();
    HostSanitized();
    OrganizationSanitized();
    SanitizeAppend("https://graph.", "windows.net/");
    SanitizeAppend("https://graph." + "windows.net/", "myorganization");
  }

  /** `https://graph.` becomes `https___graph_`. */
  lemma SchemeSanitized()
    ensures Sanitize("https://graph.") == "https___graph_"
  {
    SanitizeEach("https://graph.", "https___graph_");
  }

  /** `windows.net/` becomes `windows_net_`. */
  lemma HostSanitized()
    ensures Sanitize("windows.net/") == "windows_net_"
  {
    SanitizeEach("windows.net/", "windows_net_");
  }

  /** `myorganization` is all word characters. */
  lemma OrganizationSanitized()
    ensures Sanitize("myorganization") == "myorganization"
  {
    SanitizeWordChars("myorganization");
  }

  /** The root HTML id: every `:`, `/` and `.` of the UID becomes `_`. */
  lemma ContactsRootHtmlId()
    ensures GetHtmlId(Some(ContactsUid)) == Some(ContactsHtmlId)
  {
    ServerUrlHtmlId();
    ContactsSuffixSanitized();
    SanitizeAppend(ServerUrl, ContactsSuffix);
  }

  /** A tag UID keeps the space in the tag name. */
  lemma PetStoreTagUid(uid: string, name: string)
    requires uid == ContactsUid && name == "pet store"
    ensures GetUidForTag(uid, Tag(Some(name), None, None, map[])) == ContactsUid + "/tag/" + "pet store"
  {
    assert uid[0] == 'h' && uid[|uid| - 1] == '0';
    assert name[0] == 'p' && name[|name| - 1] == 'e';
    TrimUnchanged(name, '/');
    TagUidShape(uid, Tag(Some(name), None, None, map[]));
  }

  /** An operation UID appends the operation id, spaces included. */
  lemma ContactByIdUid(uid: string, id: string)
    requires uid == ContactsUid && id == "get contact by id"
    ensures GetUidForOperation(uid, Operation(Some(id), None, None, [], None, None)) == ContactsUid + ContactByIdSuffix
  {
    ContactsUidPlain(uid);
    ContactByIdPlain(id);
    OperationUidAfterParent(uid, id);
  }

  /** The contacts root UID has no outer `/`. */
  lemma ContactsUidPlain(uid: string)
    requires uid == ContactsUid
    ensures |uid| > 0 && uid[0] != '/' && uid[|uid| - 1] != '/'
  {
    assert uid[0] == 'h' && uid[|uid| - 1] == '0';
  }

  /** The operation id has no outer `/`, and `/` before it spells the
      operation's part of the UID. */
  lemma ContactByIdPlain(id: string)
    requires id == "get contact by id"
    ensures |id| > 0 && id[0] != '/' && id[|id| - 1] != '/'
    ensures "/" + id == ContactByIdSuffix
  {
    assert id[0] == 'g' && id[|id| - 1] == 'd';
  }

  /** Under a parent UID without outer `/`, an operation id without outer `/`
      is appended after a `/`. */
  lemma OperationUidAfterParent(uid: string, id: string)
    requires |uid| > 0 && uid[0] != '/' && uid[|uid| - 1] != '/'
    requires |id| > 0 && id[0] != '/' && id[|id| - 1] != '/'
    ensures GetUidForOperation(uid, Operation(Some(id), None, None, [], None, None)) == uid + ("/" + id)
  {
    TrimUnchanged(id, '/');
    OperationUidShape(uid, Operation(Some(id), None, None, [], None, None));
    assert uid + "/" + id == uid + ("/" + id);
  }

  /** `/Contacts/1.0` becomes `_Contacts_1_0`. */
  lemma ContactsSuffixSanitized()
    ensures Sanitize(ContactsSuffix) == ContactsSuffixHtmlId
  {
    SanitizeEach(ContactsSuffix, ContactsSuffixHtmlId);
  }

  /** `/get contact by id`, the operation's part of its UID. */
  const ContactByIdSuffix := "/get contact by id"

  /** `_get_contact_by_id`. */
  const ContactByIdSuffixHtmlId := "_get_contact_by_id"

  /** The operation's HTML id also replaces the spaces of the operation id. */
  lemma ContactByIdHtmlId()
    ensures GetHtmlId(Some(ContactsUid + ContactByIdSuffix)) == Some(ContactsHtmlId + ContactByIdSuffixHtmlId)
  {
    ContactsRootHtmlId();
    ContactByIdSuffixSanitized();
    SanitizeAppend(ContactsUid, ContactByIdSuffix);
  }

  /** `/get contact by id` becomes `_get_contact_by_id`. */
  lemma ContactByIdSuffixSanitized()
    ensures Sanitize(ContactByIdSuffix) == ContactByIdSuffixHtmlId
  {
    SanitizeEach(ContactByIdSuffix, ContactByIdSuffixHtmlId);
  }

  /** A tag with a bookmark extension takes the bookmark as its HTML id. */
  lemma BookmarkedTagHtmlId()
    ensures TagHtmlId(Tag(Some("contact"), None, None, map[BookmarkExtension := JString("contact-bookmark")])) ==
      Some("contact-bookmark")
  {
  }

  /** Without a bookmark, a tag's HTML id is its sanitised name. */
  lemma PetStoreTagHtmlId()
    ensures TagHtmlId(Tag(Some("pet store"), None, None, map[])) == Some("pet_store")
  {
    SanitizeEach("pet store", "pet_store");
  }

  /** A string-typed path parameter with a string default. */
  lemma ObjectIdMetadata()
    ensures var p := Parameter(0, Some("object_id"), Path, None, true, Schema(Some(JString("31944231")), Some("string")));
      ParameterMetadata(p) == map["in" := MString("Path"), "required" := MBool(true),
                                  "default" := MString("31944231"), "type" := MString("string")]
  {
  }

  /** Two content entries with one example each give two example items, in
      entry order, with their mime types. */
  lemma TwoContentEntries(serialize: Json -> string)
    ensures var content := [("application/json", MediaType([("a", Some(JNumber(1)))])),
                            ("application/xml", MediaType([("b", None)]))];
      ContentExamples(content, serialize) ==
        [ExampleItem("application/json", Some(serialize(JNumber(1)))), ExampleItem("application/xml", None)]
  {
    var content := [("application/json", MediaType([("a", Some(JNumber(1)))])),
                    ("application/xml", MediaType([("b", None)]))];
    assert content[1..] == [("application/xml", MediaType([("b", None)]))];
    assert content[1..][1..] == [];
  }
}

=== FILE: document_processor.dfy ===
/**
 `OpenApiDocumentProcessor`: which files the processor accepts, the
 operation-id precondition checked before projection, and the file model
 `LoadArticle` builds around the converted view model.

 Reading files, the git lookup and the relative-path computation are outside
 the model: their results are inputs.
 */
module DocumentProcessor {
  import opened Nullable
  import opened Strings
  import opened OpenApiObjects
  import opened ViewModels
  import opened JsonParser
  import opened Identifiers
  import opened ModelConverter

  const OpenApiDocumentType := "RestOpenApi"
  const DocumentTypeKey := "documentType"

  /** The metadata key of the system keys (`Constants.PropertyName.SystemKeys`). */
  const SystemKeysKey := "_systemKeys"

  /** `.json`, the ending every accepted file ending ends with. */
  const JsonEnding := ".json"

  /** The accepted file endings, `_swagger2.json`, `_swagger.json`,
      `.swagger.json`, `.swagger2.json` and `.json`, in that order. */
  const SupportedFileEndings: seq<string> :=
    ["_swagger2" + JsonEnding, "_swagger" + JsonEnding, ".swagger" + JsonEnding, ".swagger2" + JsonEnding, JsonEnding]

  /** The metadata keys the template layer treats as system keys. */
  const SystemKeys: seq<string> := [
    "uid", "htmlId", "name", "conceptual", "description", "remarks", "summary", "documentation",
    "children", "documentType", "source",
    "openapi", "info", "servers", "schemes", "consumes", "produces", "paths", "definitions",
    "parameters", "responses", "securityDefinitions", "security", "tags", "externalDocs"]

  /** The kinds of input file the build hands to a processor. */
  datatype DocumentType = Article | Overwrite | Resource

  datatype ProcessingPriority = NotSupported | Normal

  /** A file of the build: base directory, path relative to it, full path, kind. */
  datatype FileAndType = FileAndType(baseDir: string, file: string, fullPath: string, documentType: DocumentType)

  // ------------------------------------------------------ classification

  /** `endings.Any(e => IsSupportedFileEnding(path, e))`. */
  predicate AnyEndingMatches(endings: seq<string>, path: string) {
    |endings| > 0 && (EndsWithIgnoreCase(path, endings[0]) || AnyEndingMatches(endings[1..], path))
  }

  /** When every ending ends with `suffix`, a path matching any of them ends
      with `suffix`. */
  lemma {:induction false} AnyEndingImpliesSuffix(endings: seq<string>, suffix: string, path: string)
    requires forall k :: 0 <= k < |endings| ==>
      |suffix| <= |endings[k]| && endings[k][|endings[k]| - |suffix|..] == suffix
    requires AnyEndingMatches(endings, path)
    ensures EndsWithIgnoreCase(path, suffix)
  {
    var e := endings[0];
    if EndsWithIgnoreCase(path, e) {
      assert e == e[..|e| - |suffix|] + suffix;
      EndsWithTail(path, e[..|e| - |suffix|], suffix);
    } else {
      assert forall k :: 0 <= k < |endings| - 1 ==> endings[1..][k] == endings[k + 1];
      AnyEndingImpliesSuffix(endings[1..], suffix, path);
    }
  }

  /** A path ending with one of the endings matches the list. */
  lemma {:induction false} MemberEndingMatches(endings: seq<string>, suffix: string, path: string)
    requires suffix in endings && EndsWithIgnoreCase(path, suffix)
    ensures AnyEndingMatches(endings, path)
  {
    if endings[0] != suffix {
      assert endings == [endings[0]] + endings[1..];
      MemberEndingMatches(endings[1..], suffix, path);
    }
  }

  /** Every supported ending ends with `.json`, so matching any of them is the
      same as ending with `.json`. */
  lemma SupportedEndingIsJson(path: string)
    ensures AnyEndingMatches(SupportedFileEndings, path) <==> EndsWithIgnoreCase(path, JsonEnding)
  {
    var e := SupportedFileEndings;
    forall k | 0 <= k < |e| ensures |JsonEnding| <= |e[k]| && e[k][|e[k]| - |JsonEnding|..] == JsonEnding {
      var prefix := if k == 0 then "_swagger2" else if k == 1 then "_swagger" else if k == 2 then ".swagger"
        else if k == 3 then ".swagger2" else "";
      assert e[k] == prefix + JsonEnding;
      assert (prefix + JsonEnding)[|prefix|..] == JsonEnding;
    }
    if AnyEndingMatches(e, path) {
      AnyEndingImpliesSuffix(e, JsonEnding, path);
    }
    if EndsWithIgnoreCase(path, JsonEnding) {
      assert e[4] == JsonEnding;
      MemberEndingMatches(e, JsonEnding, path);
    }
  }

  /** `IsOpenApiFile`: whether parsing yields a model. "File not found" and
      "unsupported spec version" count as "no"; other reader exceptions pass. */
  function IsOpenApiFile(reader: ReaderResult): (r: Result<bool, ReaderException>)
    ensures r == Success(true) <==> Parse(reader).Success? && Parse(reader).value.Some?
    ensures r.Failure? <==> reader == Threw(OtherReadFailure)
    ensures r.Failure? ==> r.error == OtherReadFailure
  {
    match Parse(reader)
    case Success(m) => Success(m.Some?)
    case Failure(FileNotFound) => Success(false)
    case Failure(UnsupportedSpecVersion) => Success(false)
    case Failure(e) => Failure(e)
  }

  /** `IsSupportedFile`: a supported ending and an OpenAPI 3 document; the file
      is not read unless the ending matches. */
  function IsSupportedFile(fullPath: string, reader: ReaderResult): (r: Result<bool, ReaderException>)
    // any path not ending in `.json` (ignoring case) is rejected without reading it
    ensures !EndsWithIgnoreCase(fullPath, JsonEnding) ==> r == Success(false)
    // a `.json` path is supported exactly when it holds an OpenAPI 3 document
    ensures EndsWithIgnoreCase(fullPath, JsonEnding) ==> r == IsOpenApiFile(reader)
  {
    SupportedEndingIsJson(fullPath);
    if AnyEndingMatches(SupportedFileEndings, fullPath) then IsOpenApiFile(reader) else Success(false)
  }

  /** A directory separator (`/`, and `\` as on Windows). */
  predicate IsDirectorySeparator(ch: char) {
    ch == '/' || ch == '\\'
  }

  /** `Path.GetExtension`: from the last `.` of the file name to the end, or
      empty when the name has no `.` or ends with it. */
  function GetExtension(path: string): (r: string)
    ensures r == [] || (2 <= |r| <= |path| && r[0] == '.' && r == path[|path| - |r|..])
    ensures forall k :: 1 <= k < |r| ==> r[k] != '.' && !IsDirectorySeparator(r[k])
    // empty exactly when the path ends with `.` or its file name has no `.`
    ensures r == [] <==> (|path| > 0 && path[|path| - 1] == '.') || NoDotInName(path, |path|)
  {
    ExtensionChars(path);
    ExtensionBeforeEmpty(path, |path|);
    ExtensionBefore(path, |path|)
  }

  /** After its leading `.`, an extension holds neither `.` nor a separator. */
  lemma ExtensionChars(path: string)
    ensures var r := ExtensionBefore(path, |path|);
      forall k :: 1 <= k < |r| ==> r[k] != '.' && !IsDirectorySeparator(r[k])
  {
    var r := ExtensionBefore(path, |path|);
    assert forall k :: 1 <= k < |r| ==> r[k] == path[|path| - |r| + k];
  }

  /** Every `.` before position `i` has a directory separator after it, before
      `i`: the file name ending at `i` holds no `.`. */
  predicate NoDotInName(path: string, i: nat)
    requires i <= |path|
  {
    forall k :: 0 <= k < i && path[k] == '.' ==> SeparatorBetween(path, k, i)
  }

  /** Some directory separator lies strictly after `k` and before `i`. */
  predicate SeparatorBetween(path: string, k: nat, i: nat)
    requires i <= |path|
  {
    exists m :: k < m < i && IsDirectorySeparator(path[m])
  }

  /** When the backward scan from `i` finds no extension. */
  lemma {:induction false} ExtensionBeforeEmpty(path: string, i: nat)
    requires i <= |path|
    ensures ExtensionBefore(path, i) == [] <==>
      (i == |path| && i > 0 && path[i - 1] == '.') || NoDotInName(path, i)
  {
    if i > 0 {
      var ch := path[i - 1];
      if ch == '.' {
        assert !NoDotInName(path, i) by {
          assert path[i - 1] == '.';
        }
      } else if IsDirectorySeparator(ch) {
        forall k | 0 <= k < i && path[k] == '.' ensures SeparatorBetween(path, k, i) {
          assert k < i - 1 && IsDirectorySeparator(path[i - 1]);
        }
      } else {
        ExtensionBeforeEmpty(path, i - 1);
        NoDotInNameStep(path, i);
      }
    }
  }

  /** A character that is neither `.` nor a separator does not change whether
      the name has a `.`. */
  lemma NoDotInNameStep(path: string, i: nat)
    requires 0 < i <= |path| && path[i - 1] != '.' && !IsDirectorySeparator(path[i - 1])
    ensures NoDotInName(path, i) <==> NoDotInName(path, i - 1)
  {
    if NoDotInName(path, i) {
      forall k | 0 <= k < i - 1 && path[k] == '.' ensures SeparatorBetween(path, k, i - 1) {
        SeparatorBeforeLast(path, k, i);
      }
    }
    if NoDotInName(path, i - 1) {
      forall k | 0 <= k < i && path[k] == '.' ensures SeparatorBetween(path, k, i) {
        assert k != i - 1;
        SeparatorBetweenWidens(path, k, i - 1, i);
      }
    }
  }

  /** A separator before `i` other than at `i - 1` lies before `i - 1`. */
  lemma SeparatorBeforeLast(path: string, k: nat, i: nat)
    requires 0 < i <= |path| && !IsDirectorySeparator(path[i - 1]) && SeparatorBetween(path, k, i)
    ensures SeparatorBetween(path, k, i - 1)
  {
    var m :| k < m < i && IsDirectorySeparator(path[m]);
    assert m != i - 1;
  }

  /** A separator before `j` lies before any later `i`. */
  lemma SeparatorBetweenWidens(path: string, k: nat, j: nat, i: nat)
    requires j <= i <= |path| && SeparatorBetween(path, k, j)
    ensures SeparatorBetween(path, k, i)
  {
    var m :| k < m < j && IsDirectorySeparator(path[m]);
    assert k < m < i;
  }

  /** The extension found scanning `path` backwards from position `i`. */
  function ExtensionBefore(path: string, i: nat): (r: string)
    requires i <= |path|
    ensures r == [] || (2 <= |r| <= |path| && r[0] == '.' && |path| - |r| < i && r == path[|path| - |r|..])
    ensures r != [] ==> forall k :: |path| - |r| < k < i ==> path[k] != '.' && !IsDirectorySeparator(path[k])
  {
    if i == 0 then ""
    else if path[i - 1] == '.' then (if i - 1 != |path| - 1 then path[i - 1..] else "")
    else if IsDirectorySeparator(path[i - 1]) then ""
    else ExtensionBefore(path, i - 1)
  }

  /** The extension is `.md` (ignoring case) exactly when the name ends with `.md`. */
  lemma MarkdownExtension(path: string)
    ensures EqualsIgnoreCase(".md", GetExtension(path)) <==> EndsWithIgnoreCase(path, ".md")
  {
    var n := |path|;
    if EndsWithIgnoreCase(path, ".md") {
      MarkdownSuffixIsExtension(path);
    }
    var x := GetExtension(path);
    if EqualsIgnoreCase(".md", x) {
      assert x == path[n - 3..];
    }
  }

  /** A name ending with `.md` in any case has that ending as its extension. */
  lemma MarkdownSuffixIsExtension(path: string)
    requires EndsWithIgnoreCase(path, ".md")
    ensures GetExtension(path) == path[|path| - 3..]
  {
    var n := |path|;
    var t := path[n - 3..];
    assert UpperInvariant(t[0]) == '.' && UpperInvariant(t[1]) == 'M' && UpperInvariant(t[2]) == 'D';
    assert path[n - 1] == t[2] && path[n - 2] == t[1] && path[n - 3] == t[0];
    assert path[n - 1] != '.' && !IsDirectorySeparator(path[n - 1]);
    assert path[n - 2] != '.' && !IsDirectorySeparator(path[n - 2]);
    assert path[n - 3] == '.';
    assert ExtensionBefore(path, n - 2) == t;
    assert ExtensionBefore(path, n - 1) == t;
  }

  /** `GetProcessingPriority`. A failure is a reader exception that escapes. */
  function GetProcessingPriority(file: FileAndType, reader: ReaderResult): (r: Result<ProcessingPriority, ReaderException>)
    // an article is accepted exactly when its path ends with .json and it parses as OpenAPI 3.0
    ensures file.documentType == Article ==>
      (r == Success(Normal) <==>
        EndsWithIgnoreCase(file.fullPath, JsonEnding) && Parse(reader).Success? && Parse(reader).value.Some?)
    // and an exception escapes only for a .json path on which the reader failed otherwise
    ensures file.documentType == Article ==>
      (r.Failure? <==> EndsWithIgnoreCase(file.fullPath, JsonEnding) && reader == Threw(OtherReadFailure))
    // an overwrite file is accepted exactly when its extension is .md
    ensures file.documentType == Overwrite ==>
      r == Success(if EndsWithIgnoreCase(file.file, ".md") then Normal else NotSupported)
    ensures file.documentType == Resource ==> r == Success(NotSupported)
  {
    SupportedEndingIsJson(file.fullPath);
    MarkdownExtension(file.file);
    match file.documentType
    case Article =>
      (match IsSupportedFile(file.fullPath, reader)
       case Success(true) => Success(Normal)
       case Success(false) => Success(NotSupported)
       case Failure(e) => Failure(e))
    case Overwrite =>
      if EqualsIgnoreCase(".md", GetExtension(file.file)) then Success(Normal) else Success(NotSupported)
    case Resource => Success(NotSupported)
  }

  /** A path without a `.json` ending is rejected without regard to its content. */
  lemma NonJsonArticleNotSupported(file: FileAndType, reader: ReaderResult)
    requires file.documentType == Article && !EndsWithIgnoreCase(file.fullPath, JsonEnding)
    ensures GetProcessingPriority(file, reader) == Success(NotSupported)
  {
  }

  // ----------------------------------------------------- operation ids

  /** The error `CheckOperationId` throws, naming the verb, path and file. */
  datatype MissingOperationId = MissingOperationId(operationName: string, path: string, fileName: string)

  /** Every operation under every path, whatever its verb, has an operation id. */
  predicate OperationIdsPresent(paths: seq<(string, PathItem)>) {
    forall i, j :: 0 <= i < |paths| && 0 <= j < |paths[i].1.operations| ==>
      !IsNullOrEmpty(paths[i].1.operations[j].1.operationId)
  }

  /** The inner loop of `CheckOperationId`, over the verbs of one path. */
  function CheckOperations(path: string, operations: seq<(OperationType, Operation)>, fileName: string): (r: Outcome<MissingOperationId>)
    ensures r.Pass? <==> forall j :: 0 <= j < |operations| ==> !IsNullOrEmpty(operations[j].1.operationId)
    ensures r.Fail? ==>
      && r.error.path == path && r.error.fileName == fileName
      && exists j :: 0 <= j < |operations| && IsNullOrEmpty(operations[j].1.operationId) &&
           r.error.operationName == OperationTypeName(operations[j].0)
  {
    if |operations| == 0 then Pass
    else if IsNullOrEmpty(operations[0].1.operationId) then
      Fail(MissingOperationId(OperationTypeName(operations[0].0), path, fileName))
    else
      var r := CheckOperations(path, operations[1..], fileName);
      assert forall j :: 1 <= j < |operations| ==> operations[j] == operations[1..][j - 1];
      r
  }

  /** The outer loop of `CheckOperationId`, over the paths. */
  function CheckPaths(paths: seq<(string, PathItem)>, fileName: string): (r: Outcome<MissingOperationId>)
    ensures r.Pass? <==> OperationIdsPresent(paths)
    ensures r.Fail? ==>
      && r.error.fileName == fileName
      && exists i, j :: 0 <= i < |paths| && 0 <= j < |paths[i].1.operations| &&
           IsNullOrEmpty(paths[i].1.operations[j].1.operationId) &&
           r.error.path == paths[i].0 && r.error.operationName == OperationTypeName(paths[i].1.operations[j].0)
  {
    if |paths| == 0 then Pass
    else
      match CheckOperations(paths[0].0, paths[0].1.operations, fileName)
      case Fail(e) => Fail(e)
      case Pass =>
        var r := CheckPaths(paths[1..], fileName);
        assert forall i :: 1 <= i < |paths| ==> paths[i] == paths[1..][i - 1];
        r
  }

  /** `CheckOperationId`: fails, naming an operation whose id is null or
      empty, when there is one; passes when there are no paths. */
  function CheckOperationId(document: Document, fileName: string): (r: Outcome<MissingOperationId>)
    ensures document.paths.None? ==> r.Pass?
    ensures r.Pass? <==> OperationIdsPresent(DocumentPaths(document))
  {
    match document.paths
    case None => Pass
    case Some(paths) => CheckPaths(paths, fileName)
  }

  /** After the check, every (path, verb) pair has an operation id. */
  lemma {:induction false} EntriesHaveIds(paths: seq<(string, PathItem)>)
    requires OperationIdsPresent(paths)
    ensures forall e :: e in AllOperations(paths) ==> !IsNullOrEmpty(e.operation.operationId)
  {
    if |paths| > 0 {
      var first := PathOperations(paths[0].0, paths[0].1.parameters, paths[0].1.operations);
      assert OperationIdsPresent(paths[1..]) by {
        forall i, j | 0 <= i < |paths| - 1 && 0 <= j < |paths[1..][i].1.operations|
          ensures !IsNullOrEmpty(paths[1..][i].1.operations[j].1.operationId)
        {
          assert paths[1..][i] == paths[i + 1];
        }
      }
      EntriesHaveIds(paths[1..]);
      forall e | e in first ensures !IsNullOrEmpty(e.operation.operationId) {
        var j :| 0 <= j < |first| && first[j] == e;
        assert e.operation == paths[0].1.operations[j].1;
      }
    }
  }

  // --------------------------------------------------------- load article

  /** `UidDefinition`: a UID and the file that defines it. */
  datatype UidDefinition = UidDefinition(name: string, file: string)

  /** The file model `LoadArticle` returns. */
  datatype FileModel = FileModel(file: FileAndType, content: RootItem, uids: seq<UidDefinition>, localPathFromRoot: string)

  function Names(definitions: seq<UidDefinition>): (r: seq<string>)
    ensures |r| == |definitions|
    ensures forall k :: 0 <= k < |r| ==> r[k] == definitions[k].name
  {
    if |definitions| == 0 then [] else [definitions[0].name] + Names(definitions[1..])
  }

  /** Definitions of the non-empty UIDs, in order, each as often as it occurs. */
  function NonEmptyDefinitions(uids: seq<string>, file: string): (r: seq<UidDefinition>)
    ensures |r| <= |uids|
    ensures forall k :: 0 <= k < |r| ==> r[k].file == file && r[k].name != ""
    ensures forall u :: multiset(Names(r))[u] == if u == "" then 0 else multiset(uids)[u]
  {
    if |uids| == 0 then []
    else
      var rest := NonEmptyDefinitions(uids[1..], file);
      assert uids == [uids[0]] + uids[1..];
      if uids[0] != "" then
        var r := [UidDefinition(uids[0], file)] + rest;
        assert Names(r) == [uids[0]] + Names(rest);
        r
      else rest
  }

  /** The children's UIDs, in child order. */
  function ChildUids(children: seq<ChildItem>): seq<string> {
    seq(|children|, k requires 0 <= k < |children| => children[k].uid)
  }

  /** The tags' UIDs, in tag order. */
  function TagUids(tags: seq<TagItem>): seq<string> {
    seq(|tags|, k requires 0 <= k < |tags| => tags[k].uid)
  }

  /** The number of non-empty strings. */
  function CountNonEmpty(uids: seq<string>): nat {
    if |uids| == 0 then 0 else (if uids[0] != "" then 1 else 0) + CountNonEmpty(uids[1..])
  }

  /** Dropping empty UIDs leaves as many definitions as there are non-empty UIDs. */
  lemma {:induction false} NonEmptyDefinitionsCount(uids: seq<string>, file: string)
    ensures |NonEmptyDefinitions(uids, file)| == CountNonEmpty(uids)
  {
    if |uids| > 0 {
      NonEmptyDefinitionsCount(uids[1..], file);
    }
  }

  /** A non-empty UID's definition stands at the position given by the number
      of non-empty UIDs before it, so the definitions keep the UIDs' order. */
  lemma {:induction false} NonEmptyDefinitionsAt(uids: seq<string>, file: string, k: nat)
    requires k < |uids| && uids[k] != ""
    ensures var r := NonEmptyDefinitions(uids, file); var i := CountNonEmpty(uids[..k]);
      i < |r| && r[i] == UidDefinition(uids[k], file)
  {
    if k == 0 {
      assert uids[..0] == [];
    } else {
      NonEmptyDefinitionsAt(uids[1..], file, k - 1);
      assert uids[..k][0] == uids[0] && uids[..k][1..] == uids[1..][..k - 1];
    }
  }

  /** The UID list: the root first, then the non-empty child UIDs, then the
      non-empty tag UIDs. */
  function UidList(root: RootItem, file: string): (r: seq<UidDefinition>)
    ensures |r| == 1 + CountNonEmpty(ChildUids(root.children)) + CountNonEmpty(TagUids(root.tags))
    ensures r[0] == UidDefinition(root.uid, file)
    ensures forall k :: 0 <= k < |r| ==> r[k].file == file
    ensures forall k :: 1 <= k < |r| ==> r[k].name != ""
  {
    NonEmptyDefinitionsCount(ChildUids(root.children), file);
    NonEmptyDefinitionsCount(TagUids(root.tags), file);
    [UidDefinition(root.uid, file)]
      + NonEmptyDefinitions(ChildUids(root.children), file)
      + NonEmptyDefinitions(TagUids(root.tags), file)
  }

  /** A child with a non-empty UID is listed after the root, at the position
      given by the non-empty child UIDs before it. */
  lemma UidListChildAt(root: RootItem, file: string, k: nat)
    requires k < |root.children| && root.children[k].uid != ""
    ensures var r := UidList(root, file); var i := 1 + CountNonEmpty(ChildUids(root.children)[..k]);
      i < |r| && r[i] == UidDefinition(root.children[k].uid, file)
  {
    NonEmptyDefinitionsAt(ChildUids(root.children), file, k);
  }

  /** A tag with a non-empty UID is listed after the root and all non-empty
      child UIDs, at the position given by the non-empty tag UIDs before it. */
  lemma UidListTagAt(root: RootItem, file: string, k: nat)
    requires k < |root.tags| && root.tags[k].uid != ""
    ensures var r := UidList(root, file);
      var i := 1 + CountNonEmpty(ChildUids(root.children)) + CountNonEmpty(TagUids(root.tags)[..k]);
      i < |r| && r[i] == UidDefinition(root.tags[k].uid, file)
  {
    NonEmptyDefinitionsAt(TagUids(root.tags), file, k);
    NonEmptyDefinitionsCount(ChildUids(root.children), file);
  }

  /** The metadata `LoadArticle` gives the model before conversion. */
  function ArticleMetadata(metadata: map<string, MetaValue>, repoInfo: Option<Json>): map<string, MetaValue> {
    var m := metadata[DocumentTypeKey := MString(OpenApiDocumentType)];
    match repoInfo
    case Some(info) => m[SourceKey := MSourceDetail(info)]
    case None => m
  }

  /** `LoadArticle` for a file whose parse succeeded, given its raw text, the git
      detail found for it and its display path. The first server is read only
      after the operation-id check passes. */
  function LoadArticle(file: FileAndType, reader: ReaderResult, rawText: string, repoInfo: Option<Json>,
                       displayLocalPath: string, serialize: Json -> string): (r: Result<FileModel, MissingOperationId>)
    requires Parse(reader).Success? && Parse(reader).value.Some?
    requires OperationIdsPresent(DocumentPaths(reader.document)) ==> |reader.document.servers| > 0
    // fails exactly when some operation, under any verb, lacks an operation id
    ensures r.Failure? <==> !OperationIdsPresent(DocumentPaths(reader.document))
    ensures r.Failure? ==> r.error.fileName == file.file
    ensures r.Success? ==>
      var vm := r.value.content;
      && r.value.file == file && r.value.localPathFromRoot == displayLocalPath
      && vm.raw == Some(rawText)
      && vm.metadata.Keys == {DocumentTypeKey, SystemKeysKey} + (if repoInfo.Some? then {SourceKey} else {})
      && vm.metadata[DocumentTypeKey] == MString(OpenApiDocumentType)
      && vm.metadata[SystemKeysKey] == MStrings(SystemKeys)
      && (repoInfo.Some? ==> vm.metadata[SourceKey] == MSourceDetail(repoInfo.value))
      // every child has an operation id and carries the source detail, or null
      && (forall c :: c in vm.children ==> !IsNullOrEmpty(c.operationId))
      && (forall c :: c in vm.children ==>
            c.metadata == map[SourceKey := if repoInfo.Some? then MSourceDetail(repoInfo.value) else MNull])
      // the UID list: root first, then the non-empty child and tag UIDs
      && r.value.uids == UidList(vm, displayLocalPath)
      // the view model is the conversion of the reader's document
      && vm.name == reader.document.info.title && vm.description == reader.document.info.description
      && vm.uid == GetUid(reader.document) && vm.htmlId == GetHtmlId(Some(vm.uid))
      && |vm.tags| == |DocumentTags(reader.document)|
      && (forall i :: 0 <= i < |vm.tags| ==> vm.tags[i] == ToTagItem(vm.uid, DocumentTags(reader.document)[i], serialize))
      && ChildrenOf(vm.children, vm.uid, SupportedOperations(AllOperations(DocumentPaths(reader.document))),
                    if repoInfo.Some? then MSourceDetail(repoInfo.value) else MNull, serialize)
  {
    var parsed := Parse(reader).value.value;
    var model := parsed.(metadata := ArticleMetadata(parsed.metadata, repoInfo), raw := Some(rawText));
    match CheckOperationId(model.document, file.file)
    case Fail(e) => Failure(e)
    case Pass =>
      var vm := ArticleViewModel(model, serialize);
      ArticleViewModelFacts(model, serialize);
      ArticleMetadataFacts(repoInfo);
      Success(FileModel(file, vm, UidList(vm, displayLocalPath), displayLocalPath))
  }

  /** The converted view model with the system keys added to its metadata. */
  function ArticleViewModel(model: OpenApiModel, serialize: Json -> string): RootItem
    requires |model.document.servers| > 0
  {
    var converted := FromOpenApiModel(model, serialize);
    converted.(metadata := converted.metadata[SystemKeysKey := MStrings(SystemKeys)])
  }

  /** The article's view model keeps the raw text, adds the system keys to the
      model's metadata, and gives every child an id and the source detail. */
  lemma ArticleViewModelFacts(model: OpenApiModel, serialize: Json -> string)
    requires |model.document.servers| > 0
    requires OperationIdsPresent(DocumentPaths(model.document))
    ensures var vm := ArticleViewModel(model, serialize);
      && vm.raw == model.raw
      && vm.metadata == model.metadata[SystemKeysKey := MStrings(SystemKeys)]
      && (forall c :: c in vm.children ==> !IsNullOrEmpty(c.operationId))
      && (forall c :: c in vm.children ==> c.metadata == map[SourceKey := SourceOf(model.metadata)])
      && vm.name == model.document.info.title && vm.description == model.document.info.description
      && vm.uid == GetUid(model.document) && vm.htmlId == GetHtmlId(Some(vm.uid))
      && |vm.tags| == |DocumentTags(model.document)|
      && (forall i :: 0 <= i < |vm.tags| ==> vm.tags[i] == ToTagItem(vm.uid, DocumentTags(model.document)[i], serialize))
      && ChildrenOf(vm.children, vm.uid, SupportedOperations(AllOperations(DocumentPaths(model.document))),
                    SourceOf(model.metadata), serialize)
  {
    ChildrenHaveIds(model, serialize);
  }

  /** The metadata of a freshly parsed article: the document type, the git
      detail when there is one, and the system keys. */
  lemma ArticleMetadataFacts(repoInfo: Option<Json>)
    ensures var m := ArticleMetadata(map[], repoInfo)[SystemKeysKey := MStrings(SystemKeys)];
      && m.Keys == {DocumentTypeKey, SystemKeysKey} + (if repoInfo.Some? then {SourceKey} else {})
      && m[DocumentTypeKey] == MString(OpenApiDocumentType)
      && m[SystemKeysKey] == MStrings(SystemKeys)
      && (repoInfo.Some? ==> m[SourceKey] == MSourceDetail(repoInfo.value))
    ensures SourceOf(ArticleMetadata(map[], repoInfo)) ==
      if repoInfo.Some? then MSourceDetail(repoInfo.value) else MNull
  {
  }

  /** When every operation has an id, so does every child of the projection,
      and every child carries the model's source detail. */
  lemma ChildrenHaveIds(model: OpenApiModel, serialize: Json -> string)
    requires |model.document.servers| > 0
    requires OperationIdsPresent(DocumentPaths(model.document))
    ensures forall c :: c in FromOpenApiModel(model, serialize).children ==>
      !IsNullOrEmpty(c.operationId) && c.metadata == map[SourceKey := SourceOf(model.metadata)]
  {
    var all := AllOperations(DocumentPaths(model.document));
    var r := FromOpenApiModel(model, serialize);
    EntriesHaveIds(DocumentPaths(model.document));
    SupportedEntriesHaveIds(all);
    ChildIdsFromEntries(r.children, r.uid, SupportedOperations(all), SourceOf(model.metadata), serialize);
  }

  /** Whitelisting keeps only entries of its input. */
  lemma SupportedEntriesHaveIds(entries: seq<OperationEntry>)
    requires forall e :: e in entries ==> !IsNullOrEmpty(e.operation.operationId)
    ensures forall e :: e in SupportedOperations(entries) ==> !IsNullOrEmpty(e.operation.operationId)
  {
    SupportedOperationsMembers(entries);
  }

  /** A child's operation id is its entry's. */
  lemma ChildIdsFromEntries(children: seq<ChildItem>, rootUid: string, entries: seq<OperationEntry>,
                            source: MetaValue, serialize: Json -> string)
    requires ChildrenOf(children, rootUid, entries, source, serialize)
    requires forall e :: e in entries ==> !IsNullOrEmpty(e.operation.operationId)
    ensures forall c :: c in children ==> !IsNullOrEmpty(c.operationId) && c.metadata == map[SourceKey := source]
  {
    forall c | c in children ensures !IsNullOrEmpty(c.operationId) && c.metadata == map[SourceKey := source] {
      var k :| 0 <= k < |children| && children[k] == c;
      assert entries[k] in entries;
    }
  }
}

=== FILE: identifiers.dfy ===
/**
 Identifier derivation of the OpenAPI model converter: UIDs joined from
 slash-trimmed segments, and HTML ids obtained by replacing every non-word
 character with `_`.
 */
module Identifiers {
  import opened Nullable
  import opened Strings
  import opened OpenApiObjects

  /** The segment between a root UID and a tag name. */
  const TagText := "tag"

  /** The segments `GenerateUid` keeps, each trimmed of `/`: null and empty
      segments are dropped before trimming, so a segment of slashes only
      survives as an empty component. */
  function KeptSegments(segments: seq<Option<string>>): (r: seq<string>)
    ensures |r| <= |segments|
    ensures forall k :: 0 <= k < |r| ==> r[k] == [] || (r[k][0] != '/' && r[k][|r[k]| - 1] != '/')
  {
    if |segments| == 0 then []
    else if IsNullOrEmpty(segments[0]) then KeptSegments(segments[1..])
    else [Trim(segments[0].value, '/')] + KeptSegments(segments[1..])
  }

  /** `GenerateUid`: the kept segments joined with `/`. When every segment
      is null or empty, the UID is empty. */
  function GenerateUid(segments: seq<Option<string>>): (r: string)
    ensures (forall k :: 0 <= k < |segments| ==> IsNullOrEmpty(segments[k])) ==> r == ""
  {
    AllAbsentKeepsNothing(segments);
    Join(KeptSegments(segments), "/")
  }

  /** Null and empty segments only: nothing is kept. */
  lemma {:induction false} AllAbsentKeepsNothing(segments: seq<Option<string>>)
    ensures (forall k :: 0 <= k < |segments| ==> IsNullOrEmpty(segments[k])) ==> KeptSegments(segments) == []
  {
    if |segments| > 0 {
      AllAbsentKeepsNothing(segments[1..]);
      assert forall k :: 0 <= k < |segments| - 1 ==> segments[1..][k] == segments[k + 1];
    }
  }

  /** Splitting a UID at `/` recovers the kept segments when none of them holds
      an inner `/`. */
  lemma UidSplitsIntoSegments(segments: seq<Option<string>>)
    requires |KeptSegments(segments)| > 0
    requires forall k :: 0 <= k < |KeptSegments(segments)| ==> '/' !in KeptSegments(segments)[k]
    ensures Split(GenerateUid(segments), '/') == KeptSegments(segments)
  {
    SplitJoin(KeptSegments(segments), '/');
  }

  /** Keeping segments, one segment at a time. */
  lemma KeptCons(s: Option<string>, rest: seq<Option<string>>)
    ensures KeptSegments([s] + rest) == (if IsNullOrEmpty(s) then [] else [Trim(s.value, '/')]) + KeptSegments(rest)
  {
    assert ([s] + rest)[0] == s && ([s] + rest)[1..] == rest;
  }

  /** Keeping segments distributes over concatenation. */
  lemma {:induction false} KeptSegmentsAppend(a: seq<Option<string>>, b: seq<Option<string>>)
    ensures KeptSegments(a + b) == KeptSegments(a) + KeptSegments(b)
  {
    if |a| == 0 {
      assert a + b == b;
    } else {
      assert (a + b)[0] == a[0];
      assert (a + b)[1..] == a[1..] + b;
      KeptSegmentsAppend(a[1..], b);
    }
  }

  /** A null or empty segment contributes nothing, wherever it stands. */
  lemma AbsentSegmentIgnored(a: seq<Option<string>>, s: Option<string>, b: seq<Option<string>>)
    requires IsNullOrEmpty(s)
    ensures GenerateUid(a + [s] + b) == GenerateUid(a + b)
  {
    assert [s][1..] == [];
    assert KeptSegments([s]) == [];
    KeptSegmentsAppend(a, [s]);
    assert KeptSegments(a + [s]) == KeptSegments(a);
    KeptSegmentsAppend(a + [s], b);
    KeptSegmentsAppend(a, b);
    assert KeptSegments(a + [s] + b) == KeptSegments(a + b);
  }

  /** A non-empty segment made of slashes only is kept as an empty component. */
  lemma SlashOnlySegmentKept(s: string)
    requires |s| > 0 && forall k :: 0 <= k < |s| ==> s[k] == '/'
    ensures KeptSegments([Some(s)]) == [""]
  {
    TrimEmpty(s, '/');
  }

  /** A UID neither starts nor ends with `/` when its first and last kept
      segments are not empty. */
  lemma UidHasNoOuterSlash(segments: seq<Option<string>>)
    requires |KeptSegments(segments)| > 0
    requires KeptSegments(segments)[0] != []
    requires KeptSegments(segments)[|KeptSegments(segments)| - 1] != []
    ensures var u := GenerateUid(segments); |u| > 0 && u[0] != '/' && u[|u| - 1] != '/'
  {
    var kept := KeptSegments(segments);
    var n := |kept|;
    assert kept[0][0] != '/' && kept[n - 1][|kept[n - 1]| - 1] != '/';
    JoinFirst(kept, "/");
    JoinLast(kept, "/");
  }

  /** A join starts with its first part's first character. */
  lemma JoinFirst(parts: seq<string>, sep: string)
    requires |parts| > 0 && parts[0] != []
    ensures var j := Join(parts, sep); |j| > 0 && j[0] == parts[0][0]
  {
  }

  /** A join ends with its last part's last character. */
  lemma {:induction false} JoinLast(parts: seq<string>, sep: string)
    requires |parts| > 0 && parts[|parts| - 1] != []
    ensures var j := Join(parts, sep); var l := parts[|parts| - 1];
      |j| > 0 && j[|j| - 1] == l[|l| - 1]
  {
    if |parts| > 1 {
      JoinLast(parts[1..], sep);
    }
  }

  /** Two present segments are both kept, trimmed. */
  lemma KeptPair(a: Option<string>, b: Option<string>)
    requires !IsNullOrEmpty(a) && !IsNullOrEmpty(b)
    ensures KeptSegments([a, b]) == [Trim(a.value, '/'), Trim(b.value, '/')]
  {
    assert [a, b][1..] == [b];
    assert [b][1..] == [];
  }

  /** Extending a parent UID: when the parent is non-empty and has no outer
      slash, the child UID is the parent, `/`, and the trimmed name. */
  lemma ChildUidExtendsParent(parent: string, name: Option<string>)
    requires |parent| > 0 && parent[0] != '/' && parent[|parent| - 1] != '/'
    requires !IsNullOrEmpty(name)
    ensures GenerateUid([Some(parent), name]) == parent + "/" + Trim(name.value, '/')
  {
    KeptPair(Some(parent), name);
    TrimUnchanged(parent, '/');
    var kept := [parent, Trim(name.value, '/')];
    assert kept[1..] == [Trim(name.value, '/')];
    assert Join(kept, "/") == parent + "/" + Join(kept[1..], "/");
  }

  /** `GetHtmlId`: null for a null or empty id, otherwise the id with every
      non-word character replaced by `_`. */
  function GetHtmlId(id: Option<string>): (r: Option<string>)
    ensures r.None? <==> IsNullOrEmpty(id)
    ensures r.Some? ==> |r.value| == |id.value|
  {
    if IsNullOrEmpty(id) then None else Some(Sanitize(id.value))
  }

  /** One `\W` to `_` substitution per character: word characters stay in
      place and every other character becomes `_`. */
  function Sanitize(s: string): (r: string)
    ensures |r| == |s|
    ensures forall k :: 0 <= k < |s| && IsWordChar(s[k]) ==> r[k] == s[k]
    ensures forall k :: 0 <= k < |s| && !IsWordChar(s[k]) ==> r[k] == '_'
  {
    if |s| == 0 then "" else [if IsWordChar(s[0]) then s[0] else '_'] + Sanitize(s[1..])
  }

  /** Sanitising works character by character, so it distributes over
      concatenation. */
  lemma SanitizeAppend(a: string, b: string)
    ensures Sanitize(a + b) == Sanitize(a) + Sanitize(b)
  {
    var l, sa, sb := Sanitize(a + b), Sanitize(a), Sanitize(b);
    forall k | 0 <= k < |l| ensures l[k] == (sa + sb)[k] {
      if k < |a| {
        assert (a + b)[k] == a[k] && (sa + sb)[k] == sa[k];
      } else {
        assert (a + b)[k] == b[k - |a|] && (sa + sb)[k] == sb[k - |a|];
      }
    }
  }

  /** A string of word characters only is its own sanitised form. */
  lemma SanitizeWordChars(s: string)
    requires forall k :: 0 <= k < |s| ==> IsWordChar(s[k])
    ensures Sanitize(s) == s
  {
  }

  /** The converse of `Sanitize`'s contract: a string that agrees with the
      character-by-character substitution is the sanitised form. */
  lemma SanitizeEach(s: string, t: string)
    requires |s| == |t|
    requires forall k :: 0 <= k < |s| ==> t[k] == if IsWordChar(s[k]) then s[k] else '_'
    ensures Sanitize(s) == t
  {
  }

  /** An HTML id holds word characters only. */
  lemma HtmlIdIsWordOnly(id: Option<string>)
    requires !IsNullOrEmpty(id)
    ensures forall k :: 0 <= k < |GetHtmlId(id).value| ==> IsWordChar(GetHtmlId(id).value[k])
  {
  }

  /** Deriving an HTML id from an HTML id changes nothing. */
  lemma HtmlIdIdempotent(id: Option<string>)
    requires !IsNullOrEmpty(id)
    ensures GetHtmlId(GetHtmlId(id)) == GetHtmlId(id)
  {
    var h := GetHtmlId(id).value;
    assert Sanitize(h) == h;
  }

  /** `GetUid`: the root UID from the first server's URL, the title and the
      version. With all three present it is the three, trimmed of `/`,
      joined with `/`. */
  function GetUid(document: Document): (r: string)
    requires |document.servers| > 0
    ensures !IsNullOrEmpty(document.servers[0].url) && !IsNullOrEmpty(document.info.title) &&
            !IsNullOrEmpty(document.info.version) ==>
      r == Trim(document.servers[0].url.value, '/') + "/" + Trim(document.info.title.value, '/') + "/" +
        Trim(document.info.version.value, '/')
  {
    var url, title, version := document.servers[0].url, document.info.title, document.info.version;
    if !IsNullOrEmpty(url) && !IsNullOrEmpty(title) && !IsNullOrEmpty(version) then
      ThreeSegmentUid(url, title, version);
      GenerateUid([url, title, version])
    else GenerateUid([url, title, version])
  }

  /** With a server URL, a title and a version none of which has an outer
      `/`, the root UID is the three joined with `/`. */
  lemma PlainRootUid(url: string, title: string, version: string)
    requires |url| > 0 && url[0] != '/' && url[|url| - 1] != '/'
    requires |title| > 0 && title[0] != '/' && title[|title| - 1] != '/'
    requires |version| > 0 && version[0] != '/' && version[|version| - 1] != '/'
    ensures GetUid(Document(Info(Some(title), None, Some(version)), [Server(Some(url))], None, None)) ==
      url + "/" + title + "/" + version
  {
    TrimUnchanged(url, '/');
    TrimUnchanged(title, '/');
    TrimUnchanged(version, '/');
  }

  /** The parent UID trimmed of `/` and followed by `/`, or nothing when the
      parent UID is empty. */
  function ParentPrefix(parentUid: string): string {
    if parentUid == "" then "" else Trim(parentUid, '/') + "/"
  }

  /** `/` and the last segment trimmed of `/`, or nothing when it is null or
      empty. */
  function LastSegment(last: Option<string>): string {
    if IsNullOrEmpty(last) then "" else "/" + Trim(last.value, '/')
  }

  /** `GetUidForTag`: the parent UID, `tag`, and the tag's name. A tag without
      a name still gets the `tag` segment. */
  function GetUidForTag(parentUid: string, tag: Tag): (r: string)
    ensures r == ParentPrefix(parentUid) + TagText + LastSegment(tag.name)
  {
    MiddleSegmentUid(parentUid, TagText, tag.name);
    GenerateUid([Some(parentUid), Some(TagText), tag.name])
  }

  /** A UID of a parent, a middle segment without outer slashes, and an
      optional last segment. */
  lemma MiddleSegmentUid(parentUid: string, middle: string, last: Option<string>)
    requires |middle| > 0 && middle[0] != '/' && middle[|middle| - 1] != '/'
    ensures GenerateUid([Some(parentUid), Some(middle), last]) == ParentPrefix(parentUid) + middle + LastSegment(last)
  {
    var front := if parentUid == "" then [] else [Trim(parentUid, '/')];
    var back := if IsNullOrEmpty(last) then [] else [Trim(last.value, '/')];
    var pre := ParentPrefix(parentUid);
    var post := LastSegment(last);
    MiddleKept(parentUid, middle, last);
    JoinTail(middle, back);
    assert post == if back == [] then "" else "/" + back[0];
    JoinFront(front, [middle] + back);
    assert pre == if front == [] then "" else front[0] + "/";
    assert GenerateUid([Some(parentUid), Some(middle), last]) == pre + (middle + post);
    ConcatRegroup(pre, middle, post);
  }

  /** Regrouping three parts of a UID. */
  lemma ConcatRegroup(pre: string, middle: string, post: string)
    ensures pre + (middle + post) == pre + middle + post
  {
  }

  /** Joining a part and at most one more. */
  lemma JoinTail(middle: string, back: seq<string>)
    requires |back| <= 1
    ensures Join([middle] + back, "/") == middle + (if back == [] then "" else "/" + back[0])
  {
    JoinCons(middle, back, "/");
    if back != [] {
      assert back == [back[0]];
    }
  }

  /** Joining behind at most one part. */
  lemma JoinFront(front: seq<string>, rest: seq<string>)
    requires |front| <= 1 && |rest| > 0
    ensures Join(front + rest, "/") == (if front == [] then "" else front[0] + "/") + Join(rest, "/")
  {
    if front == [] {
      assert front + rest == rest;
    } else {
      assert front + rest == [front[0]] + rest;
      JoinCons(front[0], rest, "/");
    }
  }

  /** The segments such a UID keeps. */
  lemma MiddleKept(parentUid: string, middle: string, last: Option<string>)
    requires |middle| > 0 && middle[0] != '/' && middle[|middle| - 1] != '/'
    ensures KeptSegments([Some(parentUid), Some(middle), last]) ==
      (if parentUid == "" then [] else [Trim(parentUid, '/')]) + ([middle] +
      (if IsNullOrEmpty(last) then [] else [Trim(last.value, '/')]))
  {
    var rest := [Some(middle)] + [last];
    assert [last] + [] == [last];
    KeptCons(last, []);
    TrimUnchanged(middle, '/');
    KeptCons(Some(middle), [last]);
    assert [Some(parentUid), Some(middle), last] == [Some(parentUid)] + rest;
    KeptCons(Some(parentUid), rest);
  }

  /** A joined list behind a non-empty prefix part. */
  lemma PrefixedJoin(p: string, parts: seq<string>)
    requires |parts| > 0
    ensures Join([p] + parts, "/") == p + "/" + Join(parts, "/")
  {
    JoinCons(p, parts, "/");
  }

  /** `GetUidForOperation`: the parent UID and the operation id. An operation
      without an id gets the parent UID itself, trimmed. */
  function GetUidForOperation(parentUid: string, operation: Operation): (r: string)
    ensures !IsNullOrEmpty(operation.operationId) ==>
      r == ParentPrefix(parentUid) + Trim(operation.operationId.value, '/')
    ensures IsNullOrEmpty(operation.operationId) ==> r == Trim(parentUid, '/')
  {
    OperationUidCases(parentUid, operation.operationId);
    GenerateUid([Some(parentUid), operation.operationId])
  }

  /** The operation UID's segments, case by case. */
  lemma OperationUidCases(parentUid: string, id: Option<string>)
    ensures var u := GenerateUid([Some(parentUid), id]);
      (!IsNullOrEmpty(id) ==> u == ParentPrefix(parentUid) + Trim(id.value, '/')) &&
      (IsNullOrEmpty(id) ==> u == Trim(parentUid, '/'))
  {
    var tail := if IsNullOrEmpty(id) then [] else [Trim(id.value, '/')];
    OperationKept(parentUid, id);
    if parentUid == "" {
      assert Trim(parentUid, '/') == "";
    } else if !IsNullOrEmpty(id) {
      PrefixedJoin(Trim(parentUid, '/'), tail);
    }
  }

  /** The segments an operation UID keeps. */
  lemma OperationKept(parentUid: string, id: Option<string>)
    ensures KeptSegments([Some(parentUid), id]) ==
      (if parentUid == "" then [] else [Trim(parentUid, '/')]) +
      (if IsNullOrEmpty(id) then [] else [Trim(id.value, '/')])
  {
    assert [Some(parentUid), id] == [Some(parentUid)] + [id];
    KeptCons(Some(parentUid), [id]);
    KeptCons(id, []);
  }

  /** Three present segments are trimmed and joined with `/`. */
  lemma ThreeSegmentUid(a: Option<string>, b: Option<string>, c: Option<string>)
    requires !IsNullOrEmpty(a) && !IsNullOrEmpty(b) && !IsNullOrEmpty(c)
    ensures GenerateUid([a, b, c]) == Trim(a.value, '/') + "/" + Trim(b.value, '/') + "/" + Trim(c.value, '/')
  {
    assert [a, b, c][1..] == [b, c];
    KeptPair(b, c);
    JoinThree(Trim(a.value, '/'), Trim(b.value, '/'), Trim(c.value, '/'), "/");
  }

  /** A tag UID is the parent UID followed by `/tag/` and the trimmed name when
      the parent has no outer slash; spaces in the name survive. */
  lemma TagUidShape(parentUid: string, tag: Tag)
    requires |parentUid| > 0 && parentUid[0] != '/' && parentUid[|parentUid| - 1] != '/'
    requires !IsNullOrEmpty(tag.name)
    ensures GetUidForTag(parentUid, tag) == parentUid + "/tag/" + Trim(tag.name.value, '/')
  {
    TagUidSegments(parentUid, tag);
    TagSeparator(parentUid, Trim(tag.name.value, '/'));
  }

  /** The tag UID from its three segments. */
  lemma TagUidSegments(parentUid: string, tag: Tag)
    requires |parentUid| > 0 && parentUid[0] != '/' && parentUid[|parentUid| - 1] != '/'
    requires !IsNullOrEmpty(tag.name)
    ensures GetUidForTag(parentUid, tag) == parentUid + "/" + TagText + "/" + Trim(tag.name.value, '/')
  {
    ThreeSegmentUid(Some(parentUid), Some(TagText), tag.name);
    TrimUnchanged(parentUid, '/');
    TrimUnchanged(TagText, '/');
  }

  /** `/`, `tag` and `/` spell `/tag/`. */
  lemma TagSeparator(parentUid: string, name: string)
    ensures parentUid + "/" + TagText + "/" + name == parentUid + "/tag/" + name
  {
    assert parentUid + "/" + TagText + "/" == parentUid + "/tag/";
  }

  /** An operation UID is the parent UID followed by `/` and the trimmed
      operation id when the parent has no outer slash. */
  lemma OperationUidShape(parentUid: string, operation: Operation)
    requires |parentUid| > 0 && parentUid[0] != '/' && parentUid[|parentUid| - 1] != '/'
    requires !IsNullOrEmpty(operation.operationId)
    ensures GetUidForOperation(parentUid, operation) == parentUid + "/" + Trim(operation.operationId.value, '/')
  {
    ChildUidExtendsParent(parentUid, operation.operationId);
  }

  /** A server URL made of slashes only is kept as an empty segment, so the
      root UID starts with `/`. */
  lemma SlashOnlyServerUid(url: string, title: string, version: string)
    requires |url| > 0 && forall k :: 0 <= k < |url| ==> url[k] == '/'
    requires |title| > 0 && title[0] != '/' && title[|title| - 1] != '/'
    requires |version| > 0 && version[0] != '/' && version[|version| - 1] != '/'
    ensures GetUid(Document(Info(Some(title), None, Some(version)), [Server(Some(url))], None, None)) ==
      "/" + title + "/" + version
  {
    SlashOnlyServerSegments(url, title, version);
    assert "" + "/" == "/";
  }

  /** The root UID of a slash-only server from its trimmed segments. */
  lemma SlashOnlyServerSegments(url: string, title: string, version: string)
    requires |url| > 0 && forall k :: 0 <= k < |url| ==> url[k] == '/'
    requires |title| > 0 && title[0] != '/' && title[|title| - 1] != '/'
    requires |version| > 0 && version[0] != '/' && version[|version| - 1] != '/'
    ensures GetUid(Document(Info(Some(title), None, Some(version)), [Server(Some(url))], None, None)) ==
      "" + "/" + title + "/" + version
  {
    TrimEmpty(url, '/');
    TrimUnchanged(title, '/');
    TrimUnchanged(version, '/');
  }

  /** The UIDs derived from such a root do not extend it: the parent segment
      is trimmed again, losing its leading `/`. */
  lemma SlashRootTagUid(root: string, name: string)
    requires |root| > 0 && root[0] != '/' && root[|root| - 1] != '/'
    requires |name| > 0 && name[0] != '/' && name[|name| - 1] != '/'
    ensures GetUidForTag("/" + root, Tag(Some(name), None, None, map[])) == root + "/tag/" + name
  {
    SlashRootTrimmed(root);
    ThreeSegmentUid(Some("/" + root), Some(TagText), Some(name));
    TrimUnchanged(TagText, '/');
    TrimUnchanged(name, '/');
    TagSeparator(root, name);
  }

  /** Trimming `/` followed by a root without outer slashes drops the `/`. */
  lemma SlashRootTrimmed(root: string)
    requires |root| > 0 && root[0] != '/' && root[|root| - 1] != '/'
    ensures Trim("/" + root, '/') == root
  {
    var uid := "/" + root;
    assert uid[1..] == root;
    assert TrimStart(root, '/') == root;
    assert TrimStart(uid, '/') == root;
    TrimUnchanged(root, '/');
  }
}

=== FILE: model_converter.dfy ===
/**
 `OpenApiModelConverter.FromOpenApiModel`: the projection of a parsed OpenAPI
 document onto the REST documentation view model.

 Serialising an OpenAPI value to JSON text (`JsonUtility.Serialize`) is outside
 the model and is passed in as the function `serialize`.
 */
module ModelConverter {
  import opened Nullable
  import opened Strings
  import opened OpenApiObjects
  import opened ViewModels
  import opened JsonParser
  import opened Identifiers
  import opened ParameterResolution

  /** The verbs that produce a child item, compared case-insensitively. */
  const OperationNames: seq<string> := ["get", "put", "post", "delete", "options", "head", "patch"]

  /** The vendor extension that overrides a tag's HTML id. */
  const BookmarkExtension := "x-bookmark-id"

  /** The metadata key of the source detail (`Constants.PropertyName.Source`). */
  const SourceKey := "source"

  /** The metadata key of a tag's serialised external documentation. */
  const ExternalDocsKey := "externalDocs"

  /** Whether an operation under this verb becomes a child item. */
  predicate IsSupportedOperation(t: OperationType) {
    ContainsIgnoreCase(OperationNames, OperationTypeName(t))
  }

  /** Of the eight OpenAPI verbs, only `Trace` is outside the whitelist. */
  lemma SupportedOperationTypes(t: OperationType)
    ensures IsSupportedOperation(t) <==> t != Trace
  {
    var names := OperationNames;
    var name := OperationTypeName(t);
    match t
    case Get => EqualsIgnoreCaseAfterFirst(names[0], name);
    case Put => EqualsIgnoreCaseAfterFirst(names[1], name);
    case Post => EqualsIgnoreCaseAfterFirst(names[2], name);
    case Delete => EqualsIgnoreCaseAfterFirst(names[3], name);
    case Options => EqualsIgnoreCaseAfterFirst(names[4], name);
    case Head => EqualsIgnoreCaseAfterFirst(names[5], name);
    case Patch => EqualsIgnoreCaseAfterFirst(names[6], name);
    case Trace =>
      forall i | 0 <= i < |names| ensures !EqualsIgnoreCase(names[i], name) {
        if |names[i]| == |name| {
          assert UpperInvariant(names[i][0]) != UpperInvariant(name[0]);
        }
      }
  }

  // ---------------------------------------------------------------- tags

  /** The tag's `x-bookmark-id` when it is a non-empty string. */
  function Bookmark(tag: Tag): (r: Option<string>)
    // a bookmark is a non-empty string value under `x-bookmark-id`, taken verbatim
    ensures r.Some? ==>
              r.value != "" && BookmarkExtension in tag.extensions &&
              tag.extensions[BookmarkExtension] == JString(r.value)
    // and any other extension value, or none, gives no bookmark
    ensures r.None? ==>
              BookmarkExtension !in tag.extensions || !tag.extensions[BookmarkExtension].JString? ||
              tag.extensions[BookmarkExtension].s == ""
  {
    if BookmarkExtension in tag.extensions
      && tag.extensions[BookmarkExtension].JString?
      && tag.extensions[BookmarkExtension].s != ""
    then Some(tag.extensions[BookmarkExtension].s)
    else None
  }

  /** The HTML id of a tag: its bookmark verbatim when it has one, otherwise
      the sanitised name. */
  function TagHtmlId(tag: Tag): (r: Option<string>)
    ensures Bookmark(tag).Some? ==> r == Bookmark(tag)
    ensures Bookmark(tag).None? ==>
      (r.None? <==> IsNullOrEmpty(tag.name)) &&
      (r.Some? ==> |r.value| == |tag.name.value| && forall k :: 0 <= k < |r.value| ==> IsWordChar(r.value[k]))
    // without a bookmark, each word character of the name stays and each other becomes `_`
    ensures Bookmark(tag).None? && r.Some? ==>
              forall k :: 0 <= k < |r.value| ==>
                r.value[k] == (if IsWordChar(tag.name.value[k]) then tag.name.value[k] else '_')
  {
    if Bookmark(tag).Some? then Bookmark(tag) else GetHtmlId(tag.name)
  }

  /** The view model of one root tag. */
  function ToTagItem(rootUid: string, tag: Tag, serialize: Json -> string): (r: TagItem)
    ensures r.name == tag.name && r.description == tag.description
    ensures r.htmlId == TagHtmlId(tag)
    ensures r.uid == GetUidForTag(rootUid, tag)
    ensures r.metadata.Keys == if tag.externalDocs.Some? then {ExternalDocsKey} else {}
    ensures ExternalDocsKey in r.metadata ==> r.metadata[ExternalDocsKey] == MString(serialize(tag.externalDocs.value))
  {
    var metadata := if tag.externalDocs.Some? then map[ExternalDocsKey := MString(serialize(tag.externalDocs.value))] else map[];
    TagItem(tag.name, tag.description, TagHtmlId(tag), metadata, GetUidForTag(rootUid, tag))
  }

  /** The root tags, one for one, in document order. */
  function ProjectTags(rootUid: string, tags: seq<Tag>, serialize: Json -> string): (r: seq<TagItem>)
    ensures |r| == |tags|
    ensures forall i :: 0 <= i < |tags| ==> r[i] == ToTagItem(rootUid, tags[i], serialize)
  {
    if |tags| == 0 then [] else [ToTagItem(rootUid, tags[0], serialize)] + ProjectTags(rootUid, tags[1..], serialize)
  }

  // ---------------------------------------------------------- parameters

  /** The metadata of a parameter: always its location and whether it is
      required; its default and schema type only for a string default. */
  function ParameterMetadata(p: Parameter): (r: map<string, MetaValue>)
    ensures "in" in r && r["in"] == MString(LocationName(p.location))
    ensures "required" in r && r["required"] == MBool(p.required)
    ensures ("default" in r) <==> p.schema.defaultValue.Some? && p.schema.defaultValue.value.JString?
    ensures ("type" in r) <==> ("default" in r)
    ensures "default" in r ==>
      r["default"] == MString(p.schema.defaultValue.value.s) && r["type"] == MetaOfString(p.schema.schemaType)
    ensures r.Keys <= {"in", "required", "default", "type"}
  {
    var base := map["in" := MString(LocationName(p.location)), "required" := MBool(p.required)];
    match p.schema.defaultValue
    case Some(JString(v)) => base["default" := MString(v)]["type" := MetaOfString(p.schema.schemaType)]
    case _ => base
  }

  function ToParameterItem(p: Parameter): ParameterItem {
    ParameterItem(p.description, p.name, ParameterMetadata(p))
  }

  /** The parameter items of a resolved list, one for one. */
  function ProjectParameters(parameters: seq<Parameter>): (r: seq<ParameterItem>)
    ensures |r| == |parameters|
    ensures forall i :: 0 <= i < |r| ==> r[i] == ToParameterItem(parameters[i])
  {
    if |parameters| == 0 then [] else [ToParameterItem(parameters[0])] + ProjectParameters(parameters[1..])
  }

  // ----------------------------------------------------------- responses

  /** The example items of one content entry: one per example, each carrying
      the entry's mime type, with no content for a null example. */
  function EntryExamples(mimeType: string, examples: seq<(string, Option<Json>)>,
                         serialize: Json -> string): (r: seq<ExampleItem>)
    ensures |r| == |examples|
    ensures forall k :: 0 <= k < |r| ==> r[k] == ExampleItem(mimeType, ExampleContent(examples[k].1, serialize))
  {
    if |examples| == 0 then []
    else [ExampleItem(mimeType, ExampleContent(examples[0].1, serialize))] + EntryExamples(mimeType, examples[1..], serialize)
  }

  /** The serialised example, or null for a null example. */
  function ExampleContent(example: Option<Json>, serialize: Json -> string): (r: Option<string>)
    ensures r.None? <==> example.None?
    // a present example is serialised as it is
    ensures example.Some? ==> r == Some(serialize(example.value))
  {
    match example
    case Some(v) => Some(serialize(v))
    case None => None
  }

  /** The number of examples over all content entries. */
  function ExampleCount(content: seq<(string, MediaType)>): nat {
    if |content| == 0 then 0 else |content[0].1.examples| + ExampleCount(content[1..])
  }

  /** The examples of all content entries, concatenated in entry order. */
  function ContentExamples(content: seq<(string, MediaType)>, serialize: Json -> string): (r: seq<ExampleItem>)
    ensures |r| == ExampleCount(content)
  {
    if |content| == 0 then []
    else EntryExamples(content[0].0, content[0].1.examples, serialize) + ContentExamples(content[1..], serialize)
  }

  /** Example `j` of entry `i` sits at position (examples of the entries before
      `i`) + `j`, with the entry's mime type. */
  lemma {:induction false} ContentExamplesAt(content: seq<(string, MediaType)>, serialize: Json -> string, i: nat, j: nat)
    requires i < |content| && j < |content[i].1.examples|
    ensures ExampleCount(content[..i]) + j < |ContentExamples(content, serialize)|
    ensures ContentExamples(content, serialize)[ExampleCount(content[..i]) + j] ==
      ExampleItem(content[i].0, ExampleContent(content[i].1.examples[j].1, serialize))
  {
    var head := EntryExamples(content[0].0, content[0].1.examples, serialize);
    if i > 0 {
      assert content[1..][..i - 1] == content[..i][1..];
      ContentExamplesAt(content[1..], serialize, i - 1, j);
      assert ExampleCount(content[..i]) == |content[0].1.examples| + ExampleCount(content[1..][..i - 1]);
    } else {
      assert content[..0] == [];
    }
  }

  /** The view model of one response. */
  function ToResponseItem(statusCode: string, response: Response, serialize: Json -> string): (r: ResponseItem)
    ensures r.httpStatusCode == statusCode && r.description == response.description
    ensures r.examples.Some? <==> response.content.Some?
    ensures r.examples.Some? ==> |r.examples.value| == ExampleCount(response.content.value)
    // the items are the flattened (mime type, example) pairs of the content entries
    ensures r.examples.Some? ==> r.examples.value == ContentExamples(response.content.value, serialize)
  {
    var examples := match response.content
      case Some(c) => Some(ContentExamples(c, serialize))
      case None => None;
    ResponseItem(response.description, statusCode, examples)
  }

  /** The responses of an operation, one for one, in declaration order. */
  function ProjectResponses(responses: seq<(string, Response)>, serialize: Json -> string): (r: seq<ResponseItem>)
    ensures |r| == |responses|
    ensures forall i :: 0 <= i < |r| ==> r[i] == ToResponseItem(responses[i].0, responses[i].1, serialize)
  {
    if |responses| == 0 then []
    else [ToResponseItem(responses[0].0, responses[0].1, serialize)] + ProjectResponses(responses[1..], serialize)
  }

  // ------------------------------------------------------------ children

  /** One operation with where it was found: the path key, the path's shared
      parameters and the verb. */
  datatype OperationEntry = OperationEntry(
    path: string,
    pathParameters: Option<seq<Parameter>>,
    verb: OperationType,
    operation: Operation)

  /** The names of an operation's tags, in declaration order. */
  function TagNames(tags: seq<Tag>): (r: seq<Option<string>>)
    ensures |r| == |tags|
    ensures forall i :: 0 <= i < |r| ==> r[i] == tags[i].name
  {
    if |tags| == 0 then [] else [tags[0].name] + TagNames(tags[1..])
  }

  /** The child item of one operation. */
  function ToChildItem(rootUid: string, entry: OperationEntry, source: MetaValue,
                       serialize: Json -> string): (r: ChildItem)
    ensures r.path == entry.path && r.operationName == OperationTypeName(entry.verb)
    ensures r.operationId == entry.operation.operationId
    ensures r.uid == GetUidForOperation(rootUid, entry.operation) && r.htmlId == GetHtmlId(Some(r.uid))
    ensures r.tags == TagNames(entry.operation.tags)
    ensures r.summary == entry.operation.summary && r.description == entry.operation.description
    ensures var resolved := GetParametersForOperation(entry.operation.parameters, entry.pathParameters);
      (r.parameters.Some? <==> resolved.Some?) &&
      (r.parameters.Some? ==> r.parameters.value == ProjectParameters(resolved.value))
    ensures r.responses.Some? <==> entry.operation.responses.Some?
    ensures r.responses.Some? ==> |r.responses.value| == |entry.operation.responses.value|
    ensures r.responses.Some? ==> r.responses.value == ProjectResponses(entry.operation.responses.value, serialize)
    ensures r.metadata == map[SourceKey := source]
  {
    var operation := entry.operation;
    var uid := GetUidForOperation(rootUid, operation);
    var parameters := GetParametersForOperation(operation.parameters, entry.pathParameters);
    ChildItem(
      entry.path,
      OperationTypeName(entry.verb),
      TagNames(operation.tags),
      operation.operationId,
      GetHtmlId(Some(uid)),
      uid,
      operation.description,
      operation.summary,
      match parameters case Some(ps) => Some(ProjectParameters(ps)) case None => None,
      match operation.responses case Some(rs) => Some(ProjectResponses(rs, serialize)) case None => None,
      map[SourceKey := source])
  }

  /** Every (path, verb) pair of the document, paths first, then verbs, in
      declaration order. */
  function AllOperations(paths: seq<(string, PathItem)>): seq<OperationEntry> {
    if |paths| == 0 then []
    else PathOperations(paths[0].0, paths[0].1.parameters, paths[0].1.operations) + AllOperations(paths[1..])
  }

  /** The (path, verb) pairs of one path item. */
  function PathOperations(path: string, pathParameters: Option<seq<Parameter>>,
                          operations: seq<(OperationType, Operation)>): (r: seq<OperationEntry>)
    ensures |r| == |operations|
    ensures forall j :: 0 <= j < |r| ==>
      r[j] == OperationEntry(path, pathParameters, operations[j].0, operations[j].1)
  {
    if |operations| == 0 then []
    else
      [OperationEntry(path, pathParameters, operations[0].0, operations[0].1)] +
      PathOperations(path, pathParameters, operations[1..])
  }

  /** The entries under a whitelisted verb, in order. */
  function SupportedOperations(entries: seq<OperationEntry>): (r: seq<OperationEntry>)
    ensures |r| <= |entries|
    ensures forall k :: 0 <= k < |r| ==> r[k] in entries && IsSupportedOperation(r[k].verb)
  {
    if |entries| == 0 then []
    else
      var rest := SupportedOperations(entries[1..]);
      if IsSupportedOperation(entries[0].verb) then [entries[0]] + rest else rest
  }

  /** Each entry with a supported verb is kept as often as it occurs, and the
      `Trace` entries are dropped. */
  lemma {:induction false} SupportedOperationsCount(entries: seq<OperationEntry>)
    ensures forall e ::
      multiset(SupportedOperations(entries))[e] == if e.verb != Trace then multiset(entries)[e] else 0
  {
    if |entries| > 0 {
      var x := entries[0];
      assert entries == [x] + entries[1..];
      SupportedOperationsCount(entries[1..]);
      SupportedOperationTypes(x.verb);
    }
  }

  /** An entry is kept exactly when it occurs and its verb is not `Trace`. */
  lemma SupportedOperationsMembers(entries: seq<OperationEntry>)
    ensures forall e :: e in SupportedOperations(entries) <==> e in entries && e.verb != Trace
  {
    SupportedOperationsCount(entries);
    forall e ensures e in SupportedOperations(entries) <==> e in entries && e.verb != Trace {
      assert e in SupportedOperations(entries) <==> e in multiset(SupportedOperations(entries));
      assert e in entries <==> e in multiset(entries);
    }
  }

  /** Selecting the supported entries distributes over concatenation. */
  lemma {:induction false} SupportedOperationsAppend(a: seq<OperationEntry>, b: seq<OperationEntry>)
    ensures SupportedOperations(a + b) == SupportedOperations(a) + SupportedOperations(b)
  {
    if |a| == 0 {
      assert a + b == b;
    } else {
      assert (a + b)[0] == a[0];
      assert (a + b)[1..] == a[1..] + b;
      SupportedOperationsAppend(a[1..], b);
    }
  }

  /** `children[k]` is `f(entries[k])`, for every `k`. */
  predicate Pointwise<A, B(==)>(children: seq<B>, entries: seq<A>, f: A -> B) {
    |children| == |entries| && forall k :: 0 <= k < |entries| ==> children[k] == f(entries[k])
  }

  /** The child item of an entry under a given root. */
  function ChildFor(rootUid: string, source: MetaValue, serialize: Json -> string): OperationEntry -> ChildItem {
    e => ToChildItem(rootUid, e, source, serialize)
  }

  /** `children[k]` is the child item of `entries[k]`, for every `k`. */
  predicate ChildrenOf(children: seq<ChildItem>, rootUid: string, entries: seq<OperationEntry>,
                       source: MetaValue, serialize: Json -> string) {
    Pointwise(children, entries, ChildFor(rootUid, source, serialize))
  }

  /** The inner loop over the verbs of one path item. */
  function ProjectOperations(rootUid: string, path: string, pathParameters: Option<seq<Parameter>>,
                             operations: seq<(OperationType, Operation)>, source: MetaValue,
                             serialize: Json -> string): (r: seq<ChildItem>)
    ensures |r| <= |operations|
    ensures forall k :: 0 <= k < |r| ==> r[k].path == path && r[k].metadata == map[SourceKey := source]
  {
    if |operations| == 0 then []
    else
      var rest := ProjectOperations(rootUid, path, pathParameters, operations[1..], source, serialize);
      if IsSupportedOperation(operations[0].0) then
        [ToChildItem(rootUid, OperationEntry(path, pathParameters, operations[0].0, operations[0].1), source, serialize)] + rest
      else rest
  }

  /** The outer loop over the paths. */
  function ProjectPaths(rootUid: string, paths: seq<(string, PathItem)>, source: MetaValue,
                        serialize: Json -> string): (r: seq<ChildItem>)
    ensures forall k :: 0 <= k < |r| ==>
      r[k].metadata == map[SourceKey := source] && exists j :: 0 <= j < |paths| && r[k].path == paths[j].0
  {
    if |paths| == 0 then []
    else
      ProjectOperations(rootUid, paths[0].0, paths[0].1.parameters, paths[0].1.operations, source, serialize)
      + ProjectPaths(rootUid, paths[1..], source, serialize)
  }

  /** Concatenating child lists matches concatenating their entries. */
  lemma ChildrenOfAppend(c1: seq<ChildItem>, c2: seq<ChildItem>, rootUid: string,
                         e1: seq<OperationEntry>, e2: seq<OperationEntry>,
                         source: MetaValue, serialize: Json -> string)
    requires ChildrenOf(c1, rootUid, e1, source, serialize)
    requires ChildrenOf(c2, rootUid, e2, source, serialize)
    ensures ChildrenOf(c1 + c2, rootUid, e1 + e2, source, serialize)
  {
    PointwiseAppend(c1, c2, e1, e2, ChildFor(rootUid, source, serialize));
  }

  /** Two lists that are images of two others, entry by entry, concatenate to
      the image of the concatenation. */
  lemma PointwiseAppend<A, B>(c1: seq<B>, c2: seq<B>, e1: seq<A>, e2: seq<A>, f: A -> B)
    requires Pointwise(c1, e1, f) && Pointwise(c2, e2, f)
    ensures Pointwise(c1 + c2, e1 + e2, f)
  {
    forall k | 0 <= k < |e1 + e2|
      ensures (c1 + c2)[k] == f((e1 + e2)[k])
    {
      if k < |e1| {
        assert (c1 + c2)[k] == c1[k] && (e1 + e2)[k] == e1[k];
      } else {
        assert (c1 + c2)[k] == c2[k - |e1|] && (e1 + e2)[k] == e2[k - |e1|];
      }
    }
  }

  /** The inner loop yields the children of the path's supported entries. */
  lemma {:induction false} ProjectOperationsMatches(rootUid: string, path: string,
                                                   pathParameters: Option<seq<Parameter>>,
                                                   operations: seq<(OperationType, Operation)>,
                                                   source: MetaValue, serialize: Json -> string)
    ensures ChildrenOf(ProjectOperations(rootUid, path, pathParameters, operations, source, serialize),
                       rootUid, SupportedOperations(PathOperations(path, pathParameters, operations)),
                       source, serialize)
  {
    if |operations| > 0 {
      ProjectOperationsMatches(rootUid, path, pathParameters, operations[1..], source, serialize);
      ProjectOperationsStep(rootUid, path, pathParameters, operations, source, serialize);
    }
  }

  /** One verb more: the child of a whitelisted head verb comes first, and
      any other head adds nothing. */
  lemma ProjectOperationsStep(rootUid: string, path: string, pathParameters: Option<seq<Parameter>>,
                              operations: seq<(OperationType, Operation)>,
                              source: MetaValue, serialize: Json -> string)
    requires |operations| > 0
    requires ChildrenOf(ProjectOperations(rootUid, path, pathParameters, operations[1..], source, serialize),
                        rootUid, SupportedOperations(PathOperations(path, pathParameters, operations[1..])),
                        source, serialize)
    ensures ChildrenOf(ProjectOperations(rootUid, path, pathParameters, operations, source, serialize),
                       rootUid, SupportedOperations(PathOperations(path, pathParameters, operations)),
                       source, serialize)
  {
    var e := OperationEntry(path, pathParameters, operations[0].0, operations[0].1);
    var tail := PathOperations(path, pathParameters, operations[1..]);
    var rest := ProjectOperations(rootUid, path, pathParameters, operations[1..], source, serialize);
    PathOperationsCons(path, pathParameters, operations);
    SupportedOperationsCons(e, tail);
    ProjectOperationsCons(rootUid, path, pathParameters, operations, source, serialize);
    if IsSupportedOperation(e.verb) {
      ChildrenOfCons(ToChildItem(rootUid, e, source, serialize), rest, rootUid, e, SupportedOperations(tail),
                     source, serialize);
    }
  }

  /** The children of a non-empty verb list: the head's child when its verb is
      whitelisted, then the children of the rest. */
  lemma ProjectOperationsCons(rootUid: string, path: string, pathParameters: Option<seq<Parameter>>,
                              operations: seq<(OperationType, Operation)>,
                              source: MetaValue, serialize: Json -> string)
    requires |operations| > 0
    ensures var e := OperationEntry(path, pathParameters, operations[0].0, operations[0].1);
      var rest := ProjectOperations(rootUid, path, pathParameters, operations[1..], source, serialize);
      ProjectOperations(rootUid, path, pathParameters, operations, source, serialize) ==
        if IsSupportedOperation(e.verb) then [ToChildItem(rootUid, e, source, serialize)] + rest else rest
  {
  }

  /** A child in front of a matching list matches its entry in front. */
  lemma ChildrenOfCons(c: ChildItem, rest: seq<ChildItem>, rootUid: string,
                       e: OperationEntry, entries: seq<OperationEntry>,
                       source: MetaValue, serialize: Json -> string)
    requires c == ToChildItem(rootUid, e, source, serialize)
    requires ChildrenOf(rest, rootUid, entries, source, serialize)
    ensures ChildrenOf([c] + rest, rootUid, [e] + entries, source, serialize)
  {
    var f := ChildFor(rootUid, source, serialize);
    assert f(e) == c;
    PointwiseAppend([c], rest, [e], entries, f);
  }

  /** The entries of a non-empty verb list: the head's entry, then the rest. */
  lemma PathOperationsCons(path: string, pathParameters: Option<seq<Parameter>>,
                           operations: seq<(OperationType, Operation)>)
    requires |operations| > 0
    ensures PathOperations(path, pathParameters, operations) ==
      [OperationEntry(path, pathParameters, operations[0].0, operations[0].1)] +
      PathOperations(path, pathParameters, operations[1..])
  {
  }

  /** Selecting from a list with a given head: the head is kept exactly when
      its verb is whitelisted. */
  lemma SupportedOperationsCons(e: OperationEntry, tail: seq<OperationEntry>)
    ensures SupportedOperations([e] + tail) ==
      if IsSupportedOperation(e.verb) then [e] + SupportedOperations(tail) else SupportedOperations(tail)
  {
    assert ([e] + tail)[0] == e && ([e] + tail)[1..] == tail;
  }

  /** The nested loops yield exactly the children of the supported entries of
      the flattened (path, verb) list: one child per whitelisted operation, in
      path order, then verb order. */
  lemma {:induction false} ProjectPathsMatches(rootUid: string, paths: seq<(string, PathItem)>,
                                              source: MetaValue, serialize: Json -> string)
    ensures ChildrenOf(ProjectPaths(rootUid, paths, source, serialize), rootUid,
                       SupportedOperations(AllOperations(paths)), source, serialize)
  {
    if |paths| > 0 {
      var (key, item) := paths[0];
      var first := PathOperations(key, item.parameters, item.operations);
      ProjectOperationsMatches(rootUid, key, item.parameters, item.operations, source, serialize);
      ProjectPathsMatches(rootUid, paths[1..], source, serialize);
      SupportedOperationsAppend(first, AllOperations(paths[1..]));
      ChildrenOfAppend(ProjectOperations(rootUid, key, item.parameters, item.operations, source, serialize),
                       ProjectPaths(rootUid, paths[1..], source, serialize),
                       rootUid, SupportedOperations(first), SupportedOperations(AllOperations(paths[1..])),
                       source, serialize);
    }
  }

  // ---------------------------------------------------------------- root

  /** The document's tags, or none when the list is null. */
  function DocumentTags(document: Document): seq<Tag> {
    document.tags.GetOr([])
  }

  /** The document's paths, or none when the map is null. */
  function DocumentPaths(document: Document): seq<(string, PathItem)> {
    document.paths.GetOr([])
  }

  /** The source detail every child carries: the model's, or null. */
  function SourceOf(metadata: map<string, MetaValue>): MetaValue {
    if SourceKey in metadata then metadata[SourceKey] else MNull
  }

  /** `FromOpenApiModel`. The first server is read unguarded, so a server is required. */
  function FromOpenApiModel(model: OpenApiModel, serialize: Json -> string): (r: RootItem)
    requires |model.document.servers| > 0
    ensures r.name == model.document.info.title && r.description == model.document.info.description
    ensures r.uid == GetUid(model.document) && r.htmlId == GetHtmlId(Some(r.uid))
    ensures r.metadata == model.metadata && r.raw == model.raw
    // root tags one for one, in document order
    ensures |r.tags| == |DocumentTags(model.document)|
    ensures forall i :: 0 <= i < |r.tags| ==>
      r.tags[i] == ToTagItem(r.uid, DocumentTags(model.document)[i], serialize)
    // one child per whitelisted (path, verb) pair, in path order, then verb order
    ensures ChildrenOf(r.children, r.uid, SupportedOperations(AllOperations(DocumentPaths(model.document))),
                       SourceOf(model.metadata), serialize)
  {
    var document := model.document;
    var uid := GetUid(document);
    var tags := match document.tags case Some(ts) => ProjectTags(uid, ts, serialize) case None => [];
    var children := match document.paths
      case Some(ps) => ProjectPaths(uid, ps, SourceOf(model.metadata), serialize)
      case None => [];
    ProjectPathsMatches(uid, DocumentPaths(document), SourceOf(model.metadata), serialize);
    RootItem(document.info.title, uid, GetHtmlId(Some(uid)), model.metadata, document.info.description,
             children, model.raw, tags)
  }

  /** Every child's operation name is one of the whitelisted verbs. */
  lemma ChildrenAreWhitelisted(model: OpenApiModel, serialize: Json -> string)
    requires |model.document.servers| > 0
    ensures forall c :: c in FromOpenApiModel(model, serialize).children ==>
      ContainsIgnoreCase(OperationNames, c.operationName) && c.operationName != "Trace"
  {
    var r := FromOpenApiModel(model, serialize);
    WhitelistedChildren(r.children, r.uid, AllOperations(DocumentPaths(model.document)),
                        SourceOf(model.metadata), serialize);
  }

  /** The children of whitelisted entries carry whitelisted operation names. */
  lemma WhitelistedChildren(children: seq<ChildItem>, rootUid: string, entries: seq<OperationEntry>,
                            source: MetaValue, serialize: Json -> string)
    requires ChildrenOf(children, rootUid, SupportedOperations(entries), source, serialize)
    ensures forall c :: c in children ==>
      ContainsIgnoreCase(OperationNames, c.operationName) && c.operationName != "Trace"
  {
    var supported := SupportedOperations(entries);
    SupportedOperationTypes(Trace);
    forall c | c in children
      ensures ContainsIgnoreCase(OperationNames, c.operationName) && c.operationName != "Trace"
    {
      var k :| 0 <= k < |children| && children[k] == c;
      assert c.operationName == OperationTypeName(supported[k].verb);
    }
  }
}

=== FILE: nullable.dfy ===
/**
 Optional values and error-carrying results.

 `Option` stands for a .NET reference that may be `null`; `Result` stands for
 a call that either returns a value or throws.
 */
module Nullable {

  /** A value that may be absent (`null` in the modelled code). */
  datatype Option<+T> = None | Some(value: T) {

    /** The value, or `default` when absent. */
    function GetOr(default: T): T {
      match this
      case Some(v) => v
      case None => default
    }
  }

  /** Either a returned value or a thrown error. */
  datatype Result<+R, +E> = Success(value: R) | Failure(error: E)

  /** Either normal completion or a thrown error, for calls that return nothing. */
  datatype Outcome<+E> = Pass | Fail(error: E)
}

=== FILE: openapi_json_parser.dfy ===
/**
 The version gate applied to the OpenAPI reader's output.

 Opening the file and running the reader are outside the model: the reader's
 outcome for a path is an input, either a document with its diagnostic or the
 exception the reader threw.
 */
module JsonParser {
  import opened Nullable
  import opened OpenApiObjects
  import opened ViewModels

  /** `OpenApiSpecVersion`: the version the reader recognised. */
  datatype SpecVersion = OpenApi2_0 | OpenApi3_0

  /** One reader diagnostic entry. */
  datatype OpenApiError = OpenApiError(message: string, pointer: Option<string>)

  /** `OpenApiDiagnostic`: errors, warnings and the recognised version. */
  datatype Diagnostic = Diagnostic(
    errors: seq<OpenApiError>,
    warnings: seq<OpenApiError>,
    specificationVersion: SpecVersion)

  /** What opening and reading a file can throw. */
  datatype ReaderException = FileNotFound | UnsupportedSpecVersion | OtherReadFailure

  /** The outcome of opening a path and reading it with the OpenAPI reader. */
  datatype ReaderResult =
    | Read(document: Document, diagnostic: Diagnostic)
    | Threw(exception: ReaderException)

  /** `OpenApiModel`: the parsed document with the raw text and metadata the
      document processor fills in later. */
  datatype OpenApiModel = OpenApiModel(raw: Option<string>, document: Document, metadata: map<string, MetaValue>)

  /** `OpenApiJsonParser.Parse`. `Success(None)` is the `null` result, `Failure`
      an exception passed on from the reader. */
  function Parse(reader: ReaderResult): (r: Result<Option<OpenApiModel>, ReaderException>)
    // a thrown exception is passed on unchanged, and only then is the result a failure
    ensures r.Failure? <==> reader.Threw?
    ensures r.Failure? ==> r.error == reader.exception
    // any error yields null, whatever the version
    ensures reader.Read? && |reader.diagnostic.errors| > 0 ==> r == Success(None)
    // without errors the document is accepted exactly when it is OpenAPI 3.0
    ensures reader.Read? && |reader.diagnostic.errors| == 0 ==>
      (r.Success? && r.value.Some? <==> reader.diagnostic.specificationVersion == OpenApi3_0)
    // an accepted model wraps the reader's document, with no raw text and no metadata yet
    ensures r.Success? && r.value.Some? ==>
      reader.Read? && r.value.value.document == reader.document &&
      r.value.value.raw.None? && r.value.value.metadata == map[]
  {
    match reader
    case Threw(e) => Failure(e)
    case Read(document, diagnostic) =>
      if |diagnostic.errors| > 0 then Success(None)
      else if diagnostic.specificationVersion == OpenApi3_0 then Success(Some(OpenApiModel(None, document, map[])))
      else Success(None)
  }

  /** Warnings never change the outcome: only errors are consulted. */
  lemma ParseIgnoresWarnings(document: Document, errors: seq<OpenApiError>, w1: seq<OpenApiError>,
                             w2: seq<OpenApiError>, version: SpecVersion)
    ensures Parse(Read(document, Diagnostic(errors, w1, version))) ==
            Parse(Read(document, Diagnostic(errors, w2, version)))
  {
  }

  /** A Swagger 2.0 document is never accepted, with or without errors. */
  lemma Swagger2IsRejected(document: Document, errors: seq<OpenApiError>, warnings: seq<OpenApiError>)
    ensures Parse(Read(document, Diagnostic(errors, warnings, OpenApi2_0))) == Success(None)
  {
  }
}

=== FILE: openapi_objects.dfy ===
/**
 The parsed OpenAPI 3 document, as the OpenAPI reader library hands it over:
 an immutable tree of plain values holding only the fields the documentation
 pipeline reads.

 Dictionaries of the library (paths, operations, responses, content, examples)
 are sequences of key/value pairs in declaration order, which is the order in
 which the pipeline enumerates them.
 */
module OpenApiObjects {
  import opened Nullable

  /** An arbitrary OpenAPI value (`IOpenApiAny`): vendor extensions, schema
      defaults and example objects. `JString` is the library's `OpenApiString`. */
  datatype Json =
    | JNull
    | JBool(b: bool)
    | JNumber(n: int)
    | JString(s: string)
    | JArray(items: seq<Json>)
    | JObject(members: seq<(string, Json)>)

  /** `ParameterLocation`. */
  datatype Location = Query | Header | Path | Cookie

  /** `Enum.GetName` of a parameter location. */
  function LocationName(l: Location): string {
    match l
    case Query => "Query"
    case Header => "Header"
    case Path => "Path"
    case Cookie => "Cookie"
  }

  /** `OperationType`: the HTTP verbs an OpenAPI path item can hold. */
  datatype OperationType = Get | Put | Post | Delete | Options | Head | Patch | Trace

  /** `Enum.GetName` of an operation type. */
  function OperationTypeName(t: OperationType): string {
    match t
    case Get => "Get"
    case Put => "Put"
    case Post => "Post"
    case Delete => "Delete"
    case Options => "Options"
    case Head => "Head"
    case Patch => "Patch"
    case Trace => "Trace"
  }

  /** The part of a parameter's schema that is read: its default and its type. */
  datatype Schema = Schema(defaultValue: Option<Json>, schemaType: Option<string>)

  /** A parameter object. `identity` stands for the object's reference: the
      reader shares one object between all `$ref`s to the same component, and
      the pipeline de-duplicates parameters by reference. */
  datatype Parameter = Parameter(
    identity: nat,
    name: Option<string>,
    location: Location,
    description: Option<string>,
    required: bool,
    schema: Schema)

  /** A media-type entry of a response: its named examples. An example that is
      `null` is `None`; otherwise the example object is carried as a value. */
  datatype MediaType = MediaType(examples: seq<(string, Option<Json>)>)

  /** A response: description and content keyed by mime type. */
  datatype Response = Response(description: Option<string>, content: Option<seq<(string, MediaType)>>)

  /** A tag, declared at the root or referenced by an operation. */
  datatype Tag = Tag(
    name: Option<string>,
    description: Option<string>,
    externalDocs: Option<Json>,
    extensions: map<string, Json>)

  /** An operation under one verb of a path. */
  datatype Operation = Operation(
    operationId: Option<string>,
    summary: Option<string>,
    description: Option<string>,
    tags: seq<Tag>,
    parameters: Option<seq<Parameter>>,
    responses: Option<seq<(string, Response)>>)

  /** A path item: parameters shared by all its operations, and the operations by verb. */
  datatype PathItem = PathItem(parameters: Option<seq<Parameter>>, operations: seq<(OperationType, Operation)>)

  datatype Info = Info(title: Option<string>, description: Option<string>, version: Option<string>)

  datatype Server = Server(url: Option<string>)

  /** The whole document. */
  datatype Document = Document(
    info: Info,
    servers: seq<Server>,
    tags: Option<seq<Tag>>,
    paths: Option<seq<(string, PathItem)>>)
}

=== FILE: parameters.dfy ===
/**
 Resolution of an operation's parameters against the parameters of its path:
 a path parameter applies unless the operation declares one with the same
 name and location, and the operation's own parameters come first.
 */
module ParameterResolution {
  import opened Nullable
  import opened OpenApiObjects

  /** `IsParameterEquals`: false when either side is null, otherwise the names
      are ordinal-equal and the locations are equal. */
  predicate IsParameterEquals(left: Option<Parameter>, right: Option<Parameter>): (r: bool)
    // null on either side never matches
    ensures r ==> left.Some? && right.Some?
    // a parameter matches itself, and two parameters differing in name or location do not
    ensures left.Some? && left == right ==> r
    ensures r ==> (left.value.name, left.value.location) == (right.value.name, right.value.location)
    // and two non-null parameters with the same name and location match
    ensures (left.Some? && right.Some? && left.value.name == right.value.name &&
             left.value.location == right.value.location) ==> r
  {
    if left.None? || right.None? then false
    else left.value.name == right.value.name && left.value.location == right.value.location
  }

  /** Parameter identity by (name, location) is an equivalence on non-null
      parameters, and null matches nothing. */
  lemma ParameterEqualsIsEquivalence(a: Parameter, b: Parameter, c: Parameter)
    ensures IsParameterEquals(Some(a), Some(a))
    ensures IsParameterEquals(Some(a), Some(b)) ==> IsParameterEquals(Some(b), Some(a))
    ensures IsParameterEquals(Some(a), Some(b)) && IsParameterEquals(Some(b), Some(c)) ==>
      IsParameterEquals(Some(a), Some(c))
    ensures !IsParameterEquals(None, Some(a)) && !IsParameterEquals(Some(a), None)
  {
  }

  /** Some operation parameter has the same (name, location) as `p`. */
  predicate Overridden(p: Parameter, operationParameters: seq<Parameter>) {
    exists o :: o in operationParameters && IsParameterEquals(Some(p), Some(o))
  }

  /** The path parameters that no operation parameter overrides, in path order. */
  function UniquePathParameters(pathParameters: seq<Parameter>, operationParameters: seq<Parameter>): (r: seq<Parameter>)
    ensures |r| <= |pathParameters|
    ensures forall p :: p in r <==> p in pathParameters && !Overridden(p, operationParameters)
    ensures DistinctIdentities(pathParameters) ==> DistinctIdentities(r)
    // with nothing overridden, the path's list is kept as it is
    ensures (forall p :: p in pathParameters ==> !Overridden(p, operationParameters)) ==> r == pathParameters
  {
    if |pathParameters| == 0 then []
    else
      var rest := UniquePathParameters(pathParameters[1..], operationParameters);
      assert forall p :: p in pathParameters <==> p == pathParameters[0] || p in pathParameters[1..];
      DistinctTail(pathParameters);
      if Overridden(pathParameters[0], operationParameters) then rest
      else [pathParameters[0]] + rest
  }

  /** The filter keeps path order: it distributes over concatenation. */
  lemma {:induction false} UniquePathParametersAppend(a: seq<Parameter>, b: seq<Parameter>, operationParameters: seq<Parameter>)
    ensures UniquePathParameters(a + b, operationParameters) ==
      UniquePathParameters(a, operationParameters) + UniquePathParameters(b, operationParameters)
  {
    if |a| > 0 {
      assert (a + b)[0] == a[0] && (a + b)[1..] == a[1..] + b;
      UniquePathParametersAppend(a[1..], b, operationParameters);
    } else {
      assert a + b == b;
    }
  }

  /** The tail of a distinct list is distinct and avoids the head's identity. */
  lemma DistinctTail(s: seq<Parameter>)
    requires |s| > 0
    ensures DistinctIdentities(s) ==>
      DistinctIdentities(s[1..]) && forall p :: p in s[1..] ==> p.identity != s[0].identity
  {
    if DistinctIdentities(s) {
      forall i, j | 0 <= i < |s| - 1 && 0 <= j < |s| - 1 && i != j
        ensures s[1..][i].identity != s[1..][j].identity
      {
        assert s[1..][i] == s[i + 1] && s[1..][j] == s[j + 1];
      }
      forall p | p in s[1..] ensures p.identity != s[0].identity {
        var j :| 0 <= j < |s| - 1 && s[1..][j] == p;
        assert s[j + 1] == p;
      }
    }
  }

  /** The identities (object references) of a parameter list. */
  function Identities(s: seq<Parameter>): set<nat> {
    set p | p in s :: p.identity
  }

  /** No object occurs twice. */
  predicate DistinctIdentities(s: seq<Parameter>) {
    forall i, j :: 0 <= i < |s| && 0 <= j < |s| && i != j ==> s[i].identity != s[j].identity
  }

  /** `Enumerable.Union` restricted to what is not in `seen`: the first
      occurrence of every identity, in order. */
  function DistinctByIdentity(s: seq<Parameter>, seen: set<nat>): (r: seq<Parameter>)
    ensures forall p :: p in r ==> p in s && p.identity !in seen
    ensures DistinctIdentities(r)
    ensures Identities(r) == Identities(s) - seen
    ensures DistinctIdentities(s) && Identities(s) !! seen ==> r == s
  {
    if |s| == 0 then []
    else
      var x := s[0];
      assert Identities(s) == {x.identity} + Identities(s[1..]) by {
        assert forall p :: p in s <==> p == x || p in s[1..];
      }
      if x.identity in seen then DistinctByIdentity(s[1..], seen)
      else
        var rest := DistinctByIdentity(s[1..], seen + {x.identity});
        assert forall p :: p in [x] + rest <==> p == x || p in rest;
        assert Identities([x] + rest) == {x.identity} + Identities(rest);
        [x] + rest
  }

  /** De-duplication keeps first occurrences in input order: the second part
      contributes only what neither `seen` nor the first part holds. */
  lemma {:induction false} DistinctByIdentityAppend(a: seq<Parameter>, b: seq<Parameter>, seen: set<nat>)
    ensures DistinctByIdentity(a + b, seen) == DistinctByIdentity(a, seen) + DistinctByIdentity(b, seen + Identities(a))
  {
    if |a| == 0 {
      assert a + b == b && Identities(a) == {};
      assert seen + Identities(a) == seen;
    } else {
      var x, t := a[0], a[1..];
      assert (a + b)[0] == x && (a + b)[1..] == t + b;
      DistinctByIdentityCons(a + b, seen);
      DistinctByIdentityCons(a, seen);
      IdentitiesCons(a);
      if x.identity in seen {
        DistinctByIdentityAppend(t, b, seen);
        assert seen + Identities(t) == seen + Identities(a);
      } else {
        var seen' := seen + {x.identity};
        DistinctByIdentityAppend(t, b, seen');
        assert seen' + Identities(t) == seen + Identities(a);
        ConsAppend(x, DistinctByIdentity(t, seen'), DistinctByIdentity(b, seen' + Identities(t)));
      }
    }
  }

  /** Regrouping a cons in front of a concatenation. */
  lemma ConsAppend<T>(x: T, p: seq<T>, q: seq<T>)
    ensures [x] + (p + q) == ([x] + p) + q
  {
  }

  /** One step of de-duplication: the head is kept exactly when its identity
      is new, and the rest is de-duplicated against what is then seen. */
  lemma DistinctByIdentityCons(s: seq<Parameter>, seen: set<nat>)
    requires |s| > 0
    ensures DistinctByIdentity(s, seen) ==
      if s[0].identity in seen then DistinctByIdentity(s[1..], seen)
      else [s[0]] + DistinctByIdentity(s[1..], seen + {s[0].identity})
  {
  }

  /** The identities of a non-empty list: the head's and the tail's. */
  lemma IdentitiesCons(s: seq<Parameter>)
    requires |s| > 0
    ensures Identities(s) == {s[0].identity} + Identities(s[1..])
  {
    assert forall p :: p in s <==> p == s[0] || p in s[1..];
  }

  /** `first.Union(second)` with reference equality. */
  function Union(first: seq<Parameter>, second: seq<Parameter>): (r: seq<Parameter>)
    ensures forall p :: p in r ==> p in first || p in second
    ensures Identities(r) == Identities(first) + Identities(second)
    ensures DistinctIdentities(r)
  {
    assert forall p :: p in first + second <==> p in first || p in second;
    assert Identities(first + second) == Identities(first) + Identities(second);
    DistinctByIdentity(first + second, {})
  }

  /** `Union`'s order: the first list's distinct objects, then those of the
      second list that the first does not hold, each in its list's order. */
  lemma UnionOrder(first: seq<Parameter>, second: seq<Parameter>)
    ensures Union(first, second) ==
      DistinctByIdentity(first, {}) + DistinctByIdentity(second, Identities(first))
  {
    DistinctByIdentityAppend(first, second, {});
    assert {} + Identities(first) == Identities(first);
  }

  /** A list that is present and not empty. */
  predicate HasAny(parameters: Option<seq<Parameter>>) {
    parameters.Some? && |parameters.value| > 0
  }

  /** `GetParametersForOperation`. */
  function GetParametersForOperation(operationParameters: Option<seq<Parameter>>,
                                     pathParameters: Option<seq<Parameter>>): (r: Option<seq<Parameter>>)
    // no path parameters: the operation's list, as it is (possibly null)
    ensures !HasAny(pathParameters) ==> r == operationParameters
    // no operation parameters: the path's list, as it is
    ensures HasAny(pathParameters) && !HasAny(operationParameters) ==> r == pathParameters
    // both: every parameter is the operation's or a path parameter no operation parameter overrides
    ensures HasAny(pathParameters) && HasAny(operationParameters) ==>
      r.Some? &&
      (forall p :: p in r.value ==>
        p in operationParameters.value ||
        (p in pathParameters.value && !Overridden(p, operationParameters.value)))
    // both: every operation parameter and every surviving path parameter is present, once
    ensures HasAny(pathParameters) && HasAny(operationParameters) ==>
      r.Some? &&
      Identities(r.value) ==
        Identities(operationParameters.value) +
        Identities(UniquePathParameters(pathParameters.value, operationParameters.value)) &&
      DistinctIdentities(r.value)
  {
    if !HasAny(pathParameters) then operationParameters
    else if !HasAny(operationParameters) then pathParameters
    else
      var unique := UniquePathParameters(pathParameters.value, operationParameters.value);
      Some(Union(operationParameters.value, unique))
  }

  /** Distinctness of a concatenation: both halves distinct and no shared identity. */
  lemma DistinctConcat(a: seq<Parameter>, b: seq<Parameter>)
    requires DistinctIdentities(a) && DistinctIdentities(b) && Identities(a) !! Identities(b)
    ensures DistinctIdentities(a + b)
  {
    forall i, j | 0 <= i < |a + b| && 0 <= j < |a + b| && i != j
      ensures (a + b)[i].identity != (a + b)[j].identity
    {
      if i < |a| && j >= |a| {
        assert a[i].identity in Identities(a);
        assert b[j - |a|].identity in Identities(b);
      } else if i >= |a| && j < |a| {
        assert a[j].identity in Identities(a);
        assert b[i - |a|].identity in Identities(b);
      }
    }
  }

  /** When neither list repeats an object, the result is exactly the
      operation parameters followed by the surviving path parameters. An object
      on both lists may be shared: it overrides itself. */
  lemma ResolutionOrder(operationParameters: seq<Parameter>, pathParameters: seq<Parameter>)
    requires |operationParameters| > 0 && |pathParameters| > 0
    requires DistinctIdentities(operationParameters) && DistinctIdentities(pathParameters)
    // one identity stands for one object
    requires forall o, p :: o in operationParameters && p in pathParameters && o.identity == p.identity ==> o == p
    ensures GetParametersForOperation(Some(operationParameters), Some(pathParameters)) ==
      Some(operationParameters + UniquePathParameters(pathParameters, operationParameters))
  {
    var unique := UniquePathParameters(pathParameters, operationParameters);
    // a surviving path parameter is no operation parameter, so it has none's identity
    forall p | p in unique ensures p.identity !in Identities(operationParameters) {
      forall o | o in operationParameters ensures o.identity != p.identity {
        assert IsParameterEquals(Some(o), Some(o));
      }
    }
    assert Identities(operationParameters) !! Identities(unique);
    DistinctConcat(operationParameters, unique);
    assert forall p :: p in operationParameters + unique <==> p in operationParameters || p in unique;
    assert Identities(operationParameters + unique) == Identities(operationParameters) + Identities(unique);
  }

  /** The override example: path parameters `id` (path) and `v` (query,
      required), operation parameter `v` (query, not required). Two parameters
      result, and `v` is the operation's, not required. */
  lemma OverrideExample()
    ensures var id := Parameter(1, Some("id"), Path, None, true, Schema(None, None));
      var pathV := Parameter(2, Some("v"), Query, None, true, Schema(None, None));
      var opV := Parameter(3, Some("v"), Query, None, false, Schema(None, None));
      var r := GetParametersForOperation(Some([opV]), Some([id, pathV]));
      r.Some? && |r.value| == 2 &&
      (forall p :: p in r.value && p.name == Some("v") ==> !p.required)
  {
    var id := Parameter(1, Some("id"), Path, None, true, Schema(None, None));
    var pathV := Parameter(2, Some("v"), Query, None, true, Schema(None, None));
    var opV := Parameter(3, Some("v"), Query, None, false, Schema(None, None));
    assert opV in [opV] && IsParameterEquals(Some(pathV), Some(opV));
    assert Overridden(pathV, [opV]);
    assert !Overridden(id, [opV]);
    assert [id, pathV][1..] == [pathV];
    assert UniquePathParameters([id, pathV], [opV]) == [id];
    ResolutionOrder([opV], [id, pathV]);
  }
}

=== FILE: processor_examples.dfy ===
/**
 Worked examples of file classification: an OpenAPI 3.0 `.json` article is
 processed, a `.json` article the reader reports errors for is not, and a
 missing file with another extension is not even opened.
 */
module ProcessorExamples {
  import opened Nullable
  import opened Strings
  import opened OpenApiObjects
  import opened JsonParser
  import opened DocumentProcessor

  /** Any name followed by `.json` ends with `.json`. */
  lemma JsonNameEndsWithJson(name: string)
    ensures EndsWithIgnoreCase(name + ".json", ".json")
  {
    var path := name + ".json";
    assert path[|path| - 5..] == ".json";
  }

  /** An OpenAPI 3.0 document read without errors, in a `.json` article, is processed. */
  lemma OpenApi3ArticleIsNormal(baseDir: string, name: string, document: Document, warnings: seq<OpenApiError>)
    ensures GetProcessingPriority(FileAndType(baseDir, name + ".json", baseDir + name + ".json", Article),
                                  Read(document, Diagnostic([], warnings, OpenApi3_0))) == Success(Normal)
  {
    assert baseDir + name + ".json" == baseDir + (name + ".json");
    JsonNameEndsWithJson(baseDir + name);
  }

  /** A `.json` article whose reading produced errors is not processed. */
  lemma BadFormatIsNotSupported(baseDir: string, name: string, document: Document, error: OpenApiError)
    ensures GetProcessingPriority(FileAndType(baseDir, name + ".json", baseDir + name + ".json", Article),
                                  Read(document, Diagnostic([error], [], OpenApi3_0))) == Success(NotSupported)
  {
    JsonNameEndsWithJson(baseDir + name);
  }

  /** A missing `.xyz` article is not supported: its ending rules it out before
      the reader would fail. */
  lemma MissingXyzIsNotSupported(baseDir: string, name: string)
    ensures GetProcessingPriority(FileAndType(baseDir, name + ".xyz", baseDir + name + ".xyz", Article),
                                  Threw(FileNotFound)) == Success(NotSupported)
  {
    var path := baseDir + name + ".xyz";
    if |path| >= 5 {
      var tail := path[|path| - 5..];
      assert tail[4] == 'z';
      assert UpperInvariant(tail[4]) != UpperInvariant(".json"[4]);
    }
    NonJsonArticleNotSupported(FileAndType(baseDir, name + ".xyz", path, Article), Threw(FileNotFound));
  }

  /** A missing `.json` article is not supported either: the reader's
      "file not found" is caught. */
  lemma MissingJsonIsNotSupported(baseDir: string, name: string)
    ensures GetProcessingPriority(FileAndType(baseDir, name + ".json", baseDir + name + ".json", Article),
                                  Threw(FileNotFound)) == Success(NotSupported)
  {
    JsonNameEndsWithJson(baseDir + name);
  }

  /** A markdown overwrite file is processed, whatever its case. */
  lemma MarkdownOverwriteIsNormal(baseDir: string, name: string, reader: ReaderResult)
    ensures GetProcessingPriority(FileAndType(baseDir, name + ".MD", baseDir + name + ".MD", Overwrite), reader) ==
      Success(Normal)
  {
    var file := name + ".MD";
    assert file[|file| - 3..] == ".MD";
    assert UpperInvariant(file[|file| - 2]) == 'M' && UpperInvariant(file[|file| - 1]) == 'D';
  }
}

=== FILE: strings.dfy ===
/**
 The .NET string operations the documentation pipeline relies on:
 `string.IsNullOrEmpty`, `Trim(char)`, `string.Join`, ordinal case-insensitive
 comparison and the regular-expression word class `\w`.

 Case-insensitive comparison is modelled on ASCII (the ordinal upper-case
 mapping of `a`..`z`), and `\w` is modelled on ASCII letters, digits and `_`.
 */
module Strings {
  import opened Nullable

  /** `string.IsNullOrEmpty`. */
  predicate IsNullOrEmpty(s: Option<string>) {
    s.None? || s.value == ""
  }

  /** `s.TrimStart(c)`: drops every leading `c`. */
  function TrimStart(s: string, c: char): (r: string)
    ensures |r| <= |s| && r == s[|s| - |r|..]
    ensures forall k :: 0 <= k < |s| - |r| ==> s[k] == c
    ensures r == [] || r[0] != c
  {
    if |s| > 0 && s[0] == c then TrimStart(s[1..], c) else s
  }

  /** `s.TrimEnd(c)`: drops every trailing `c`. */
  function TrimEnd(s: string, c: char): (r: string)
    ensures |r| <= |s| && r == s[..|r|]
    ensures forall k :: |r| <= k < |s| ==> s[k] == c
    ensures r == [] || r[|r| - 1] != c
  {
    if |s| > 0 && s[|s| - 1] == c then TrimEnd(s[..|s| - 1], c) else s
  }

  /** `s.Trim(c)`: drops every leading and every trailing `c`; what is left
      neither starts nor ends with `c`. */
  function Trim(s: string, c: char): (r: string)
    ensures |r| <= |s|
    ensures r == [] || (r[0] != c && r[|r| - 1] != c)
  {
    TrimEnd(TrimStart(s, c), c)
  }

  /** The trimmed string is an infix of the original, and everything cut off
      on either side is `c`. */
  lemma TrimInfix(s: string, c: char)
    ensures var r := Trim(s, c); var i := |s| - |TrimStart(s, c)|;
      i + |r| <= |s| && r == s[i..i + |r|] &&
      (forall k :: 0 <= k < i ==> s[k] == c) &&
      (forall k :: i + |r| <= k < |s| ==> s[k] == c)
  {
    var t := TrimStart(s, c);
    var r := TrimEnd(t, c);
    var i := |s| - |t|;
    assert t == s[i..] && r == t[..|r|];
    assert s[i..i + |r|] == t[..|r|];
    forall k | i + |r| <= k < |s| ensures s[k] == c {
      assert s[k] == t[k - i];
    }
  }

  /** A string that neither starts nor ends with `c` is left as it is. */
  lemma TrimUnchanged(s: string, c: char)
    requires |s| > 0 && s[0] != c && s[|s| - 1] != c
    ensures Trim(s, c) == s
  {
  }

  /** Trimming leaves nothing exactly when the string consists of `c` only. */
  lemma TrimEmpty(s: string, c: char)
    ensures Trim(s, c) == [] <==> forall k :: 0 <= k < |s| ==> s[k] == c
  {
    TrimInfix(s, c);
  }

  /** `string.Join(sep, parts)`. */
  function Join(parts: seq<string>, sep: string): string {
    if |parts| == 0 then ""
    else if |parts| == 1 then parts[0]
    else parts[0] + sep + Join(parts[1..], sep)
  }

  /** Joining a part in front of a list: the separator goes in between unless
      the list is empty. */
  lemma JoinCons(x: string, parts: seq<string>, sep: string)
    ensures Join([x] + parts, sep) == if |parts| == 0 then x else x + sep + Join(parts, sep)
  {
    assert ([x] + parts)[0] == x && ([x] + parts)[1..] == parts;
  }

  /** Joining three parts puts the separator between each pair. */
  lemma JoinThree(a: string, b: string, c: string, sep: string)
    ensures Join([a, b, c], sep) == a + sep + b + sep + c
  {
    assert [a, b, c][1..] == [b, c] && [b, c][1..] == [c];
    assert Join([b, c], sep) == b + sep + c;
    assert Join([a, b, c], sep) == a + sep + (b + sep + c);
  }

  /** The index of the first `c` in `s`, or `|s|` when there is none. */
  function IndexOf(s: string, c: char): (r: nat)
    ensures r <= |s|
    ensures forall k :: 0 <= k < r ==> s[k] != c
    ensures r < |s| ==> s[r] == c
  {
    if |s| == 0 || s[0] == c then 0 else 1 + IndexOf(s[1..], c)
  }

  /** `s.Split(c)`: the pieces between the occurrences of `c`. */
  function Split(s: string, c: char): (r: seq<string>)
    ensures |r| >= 1
    ensures forall k :: 0 <= k < |r| ==> c !in r[k]
    decreases |s|
  {
    var i := IndexOf(s, c);
    if i == |s| then [s] else [s[..i]] + Split(s[i + 1..], c)
  }

  /** Splitting a joined list at the separator gives the list back, provided no
      part contains the separator. */
  lemma {:induction false} SplitJoin(parts: seq<string>, c: char)
    requires |parts| >= 1
    requires forall k :: 0 <= k < |parts| ==> c !in parts[k]
    ensures Split(Join(parts, [c]), c) == parts
  {
    if |parts| > 1 {
      JoinHead(parts, c);
      SplitJoin(parts[1..], c);
    }
  }

  /** In a join of several parts, the first separator ends the first part. */
  lemma JoinHead(parts: seq<string>, c: char)
    requires |parts| > 1 && c !in parts[0]
    ensures var s := Join(parts, [c]); var n := |parts[0]|;
      IndexOf(s, c) == n && s[..n] == parts[0] && s[n + 1..] == Join(parts[1..], [c])
  {
    var rest := Join(parts[1..], [c]);
    var s := parts[0] + [c] + rest;
    assert Join(parts, [c]) == s;
    assert forall k :: 0 <= k < |parts[0]| ==> s[k] == parts[0][k];
    IndexOfFirst(s, c, |parts[0]|);
    assert s[..|parts[0]|] == parts[0];
    assert s[|parts[0]| + 1..] == rest;
  }

  /** A position holding `c`, with no earlier `c`, is the index of `c`. */
  lemma IndexOfFirst(s: string, c: char, i: nat)
    requires i < |s| && s[i] == c
    requires forall k :: 0 <= k < i ==> s[k] != c
    ensures IndexOf(s, c) == i
  {
  }

  /** The ordinal upper-case mapping of one character (ASCII only). */
  function UpperInvariant(ch: char): char {
    if 'a' <= ch <= 'z' then (ch as int - 32) as char else ch
  }

  /** `string.Equals(a, b, StringComparison.OrdinalIgnoreCase)`: equal lengths
      and equal upper-cased characters position by position. */
  predicate EqualsIgnoreCase(a: string, b: string) {
    |a| == |b| && forall k :: 0 <= k < |a| ==> UpperInvariant(a[k]) == UpperInvariant(b[k])
  }

  /** Two strings that differ at most in the case of their first character
      are equal ignoring case. */
  lemma EqualsIgnoreCaseAfterFirst(a: string, b: string)
    requires |a| == |b| > 0 && UpperInvariant(a[0]) == UpperInvariant(b[0]) && a[1..] == b[1..]
    ensures EqualsIgnoreCase(a, b)
  {
    forall k | 1 <= k < |a| ensures a[k] == b[k] {
      assert a[k] == a[1..][k - 1] && b[k] == b[1..][k - 1];
    }
  }

  /** `s.EndsWith(suffix, StringComparison.OrdinalIgnoreCase)`. */
  predicate EndsWithIgnoreCase(s: string, suffix: string) {
    |suffix| <= |s| && EqualsIgnoreCase(s[|s| - |suffix|..], suffix)
  }

  /** Ending with `a + b` implies ending with `b`. */
  lemma EndsWithTail(s: string, a: string, b: string)
    requires EndsWithIgnoreCase(s, a + b)
    ensures EndsWithIgnoreCase(s, b)
  {
    var t := s[|s| - |a + b|..];
    forall k | 0 <= k < |b|
      ensures UpperInvariant(s[|s| - |b|..][k]) == UpperInvariant(b[k])
    {
      assert s[|s| - |b|..][k] == t[|a| + k] && (a + b)[|a| + k] == b[k];
    }
  }

  /** `names.Contains(name, StringComparer.OrdinalIgnoreCase)`. */
  predicate ContainsIgnoreCase(names: seq<string>, name: string) {
    exists i :: 0 <= i < |names| && EqualsIgnoreCase(names[i], name)
  }

  /** A member of the regular-expression class `\w` (ASCII letters, digits, `_`). */
  predicate IsWordChar(ch: char) {
    ('a' <= ch <= 'z') || ('A' <= ch <= 'Z') || ('0' <= ch <= '9') || ch == '_'
  }
}

=== FILE: view_models.dfy ===
/**
 The REST documentation view model the converter produces: one root item per
 document, owning its tag items and a flat list of child (operation) items.
 */
module ViewModels {
  import opened Nullable
  import opened OpenApiObjects

  /** A metadata value (`object` in the modelled dictionaries). */
  datatype MetaValue =
    | MNull
    | MString(s: string)
    | MBool(b: bool)
    | MStrings(items: seq<string>)
    | MSourceDetail(remote: Json)

  /** A possibly-null string stored as a metadata value. */
  function MetaOfString(s: Option<string>): MetaValue {
    match s
    case Some(v) => MString(v)
    case None => MNull
  }

  datatype ExampleItem = ExampleItem(mimeType: string, content: Option<string>)

  datatype ResponseItem = ResponseItem(
    description: Option<string>,
    httpStatusCode: string,
    examples: Option<seq<ExampleItem>>)

  datatype ParameterItem = ParameterItem(
    description: Option<string>,
    name: Option<string>,
    metadata: map<string, MetaValue>)

  datatype ChildItem = ChildItem(
    path: string,
    operationName: string,
    tags: seq<Option<string>>,
    operationId: Option<string>,
    htmlId: Option<string>,
    uid: string,
    description: Option<string>,
    summary: Option<string>,
    parameters: Option<seq<ParameterItem>>,
    responses: Option<seq<ResponseItem>>,
    metadata: map<string, MetaValue>)

  datatype TagItem = TagItem(
    name: Option<string>,
    description: Option<string>,
    htmlId: Option<string>,
    metadata: map<string, MetaValue>,
    uid: string)

  datatype RootItem = RootItem(
    name: Option<string>,
    uid: string,
    htmlId: Option<string>,
    metadata: map<string, MetaValue>,
    description: Option<string>,
    children: seq<ChildItem>,
    raw: Option<string>,
    tags: seq<TagItem>)
}
